=== FILE: README.md ===
# student-buddy backend: decision logic in Dafny

This project models the decision logic of the student-buddy backend. That backend is a FastAPI and SQLAlchemy service for students. Each route handler is modelled as a pure function from an in-memory store to either a new store and result, or an HTTP error. Tables become sequences, or maps keyed by id. Dates and times become integers, and every identifier is a `nat`.

The modelled parts are:

- the study-streak walk over daily progress records;
- the flashcard due-card listing, the deck card counter and the review counters;
- the study-group membership state machine, with its creator and member authorisation rules;
- tag attachment on flashcards and notes, and the filtered note listing;
- registration uniqueness, the login lookup, the refresh-token registry and the access-token validation cascade;
- conversation and message bookkeeping, the thread view, placeholder generation jobs and chatbot-session deletion;
- system-prompt name uniqueness, field-wise update and version listing;
- the document reprocess reset.

Modules follow the source layout:

- `Common`: ids, errors, JSON values, WHERE and OFFSET/LIMIT.
- `Ordering`: ORDER BY on an integer key.
- One module per router: `Progress`, `Flashcards`, `Tags`, `StudyGroups`, `Notes`, `Users`, `Auth`, `Dependencies`, `Ai`, `Admin`, `Jobs`.

Outside inputs are made explicit:

- Password verification, JWT decoding, UUID parsing and the clock are parameters of the functions that use them.
- Fresh primary keys (`uuid4`) are parameters too. So is the refresh-token string: a signed JWT of the subject, the type and the expiry (backend/app/core/security.py:31-35). It is not guaranteed fresh and can repeat for the same user within one second.
- Where the handler never checks a database constraint, a violated constraint becomes a 500 error. Examples: the unique invite code, the unique `(conversation, message_order)` pair, a negative OFFSET or LIMIT, a dangling foreign key, and a delete whose child rows have a NOT NULL foreign key to the deleted row with no cascade (a reviewed flashcard, a prompt with versions).

Invariants are ghost predicates, each named `Valid` or after the property it keeps. Some examples:

- one daily record per user and date;
- a deck's `total_cards` equals its number of cards;
- no duplicate group membership;
- every group's creator is a member with role "creator";
- unique prompt names.

Preservation lemmas show that every modelled transition keeps them.

Three behaviours of the code worth noting:

- **Streak gap.** The study streak tolerates a one-day gap before *every* counted record, not only once. Positive records on today, today-2 and today-4 give a streak of 3 (`Progress.EveryOtherDay`).
- **Deck counter on delete.** Deleting a card decrements the deck's `total_cards` only when it is positive. A negative total, which a deck PATCH can produce, stays as it is rather than being clamped to 0 (`Flashcards.CountAfterDelete`).
- **Reviews.** A review computes no spaced-repetition schedule and does not check the range of `quality_rating`. It only copies the supplied values and bumps two counters.

## Model

| member | source | states |
|---|---|---|
| Common.Paginate | backend/app/api/v1/routers/flashcards/router.py:57-58 | OFFSET/LIMIT fails with a database error exactly when either bound is negative. Otherwise the page holds min(limit, rows left after skip) rows, and its i-th row is row skip+i of the input. |
| Common.PagesTile | backend/app/api/v1/routers/notes/router.py:40 | Two consecutive pages (skip, a) and (skip+a, b), concatenated, are the page (skip, a+b): paging neither drops nor repeats rows. |
| Common.PageEmptyIff | backend/app/api/v1/routers/flashcards/router.py:57-58 | A page with non-negative bounds is empty exactly when it starts at or past the end, or the limit is 0. |
| Progress.CreateDailyProgress | backend/app/api/v1/routers/progress/router.py:53-83 | 409 exactly when the caller already has a record for that date. Otherwise exactly one record for (caller, date) copying the minutes, cards reviewed, cards mastered, notes created and streak days from the payload is appended, so one-record-per-user-and-date is preserved. |
| Progress.ApplyUpdate | backend/app/api/v1/routers/progress/router.py:103-105 | For each of the five counters, a field present in the payload replaces the stored value and an absent one keeps it. The owner and the date never change, and an empty payload leaves the record unchanged. |
| Progress.UpdateDailyProgress | backend/app/api/v1/routers/progress/router.py:86-109 | 404 exactly when the caller has no record for the date. Otherwise only that record changes, the table keeps its size, and uniqueness per (user, date) is preserved. |
| Progress.StreakOf | backend/app/api/v1/routers/progress/router.py:125-147 | No records give streak 0 and no last study date. Otherwise the last study date is the first (most recent) record's date, whatever its minutes, and the streak never exceeds the number of records. |
| Progress.WalkIsStreakLength | backend/app/api/v1/routers/progress/router.py:132-147 | The walk's count meets the declarative definition. Each of the first k records has minutes > 0 and a date equal to, or one day before, the day it is checked against. The (k+1)-th record, if any, breaks that rule. |
| Progress.StreakLengthUnique | backend/app/api/v1/routers/progress/router.py:132-147 | The declarative streak definition determines at most one length, so it is a full specification of the count. |
| Progress.StreakLoop | backend/app/api/v1/routers/progress/router.py:128-147 | The imperative loop, with the same branches as the handler, returns the streak that the declarative definition describes, and the most recent record's date. |
| Progress.ConsecutiveDays | backend/app/api/v1/routers/progress/router.py:133-136 | Records for today, today-1, …, today-(k-1), all with minutes > 0, give streak k. |
| Progress.EveryOtherDay | backend/app/api/v1/routers/progress/router.py:139-145 | Positive records two days apart, starting today, all count: the one-day gap is forgiven at every step. |
| Progress.YesterdayCounts | backend/app/api/v1/routers/progress/router.py:139-143 | With no record for today, a positive record for yesterday starts the streak. |
| Progress.StopsAt | backend/app/api/v1/routers/progress/router.py:137-147 | A record with zero minutes on the checked day, or one at least two days before it, ends the streak at that record. |
| Progress.RecentHistory | backend/app/api/v1/routers/progress/router.py:117-123 | At most 365 of the caller's records, newest first. It is empty exactly when the caller has none, and its head carries the caller's latest date. |
| Progress.GetStreak | backend/app/api/v1/routers/progress/router.py:112-149 | The streak is at most 365. The last study date is absent exactly when the caller has no records; otherwise it is the caller's latest recorded date. |
| Flashcards.FindOwnedCard | backend/app/api/v1/routers/flashcards/router.py:27-38 | Finds a card with the given id whose deck the caller owns, or reports that no such card exists. |
| Flashcards.DueCards | backend/app/api/v1/routers/flashcards/router.py:49-56 | A card is listed exactly when its deck is the caller's, it is not suspended, and its next review date is absent or not after now. |
| Flashcards.ListDueCards | backend/app/api/v1/routers/flashcards/router.py:41-61 | Fails with a 500 exactly for a negative skip or limit. Otherwise the page has at most limit cards, all due and owned, and is empty when skip is at least the number of due cards. It is exactly the due list from position skip. |
| Flashcards.DueEdgeCases | backend/app/api/v1/routers/flashcards/router.py:54-55 | A card never scheduled is due exactly when not suspended, and a suspended card is never due. |
| Flashcards.DeletesFloorAtZero | backend/app/api/v1/routers/flashcards/router.py:137-138 | From a non-negative total, any number of deletes leaves max(0, total - deletes): the counter never goes negative. |
| Flashcards.CreatesThenDeletes | backend/app/api/v1/routers/flashcards/router.py:91-138 | After n creates on an empty deck, m deletes leave max(0, n - m) cards counted. |
| Flashcards.NewCard | backend/app/models/flashcard.py:32-38 | A new card starts with no ease factor, interval 0, 0 repetitions, zero total and zero correct reviews, no tags, not suspended, and no next review date, so it is due at any time. |
| Flashcards.CreateFlashcard | backend/app/api/v1/routers/flashcards/router.py:64-94 | 404 exactly when the deck is missing or not the caller's. Otherwise one new card is appended and that deck's `total_cards` rises by exactly one. Nothing else changes. |
| Flashcards.CreateKeepsValid | backend/app/api/v1/routers/flashcards/router.py:80-91 | Creating a card keeps ids unique, cards in existing decks, and review counters consistent. |
| Flashcards.CreateKeepsCounts | backend/app/api/v1/routers/flashcards/router.py:80-91 | If every deck's `total_cards` equals its card count before a create, it still does after. |
| Flashcards.DeleteFlashcard | backend/app/api/v1/routers/flashcards/router.py:125-141 | 404 exactly when the caller owns no such card. A card that has reviews cannot be deleted: the ORM nulls the reviews' NOT NULL card reference and the commit fails with a 500. Otherwise that card alone is removed and its deck's counter is decremented only if positive. |
| Flashcards.DeleteCountPositive | backend/app/api/v1/routers/flashcards/router.py:137-138 | When counts are accurate, the deck of a deleted card has a positive total, so the guard always decrements. |
| Flashcards.DeleteKeepsCounts | backend/app/api/v1/routers/flashcards/router.py:133-140 | Accurate per-deck card counts are preserved by delete. |
| Flashcards.DeleteKeepsValid | backend/app/api/v1/routers/flashcards/router.py:133-140 | Delete keeps the store valid, so every review still refers to a stored card. Afterwards the deleted id is no longer in use. |
| Flashcards.CountReview | backend/app/api/v1/routers/flashcards/router.py:165-167 | A review adds exactly one to the total. It adds one to the correct count exactly when a quality of at least 3 is given. correct ≤ total is preserved, and no other card field changes. |
| Flashcards.CreateReview | backend/app/api/v1/routers/flashcards/router.py:144-171 | 404 exactly when the caller owns no such card. A `session_id` naming no study session breaks its foreign key and gives a 500. Otherwise the review record copies the payload's session, ease and interval values verbatim, the card's counters advance as above, and validity and deck counts are preserved. |
| Flashcards.ReviewThenDeleteFails | backend/app/api/v1/routers/flashcards/router.py:153-164 | Once a review of a card is stored, deleting that card fails with a database error. |
| Flashcards.ReviewKeepsSchedule | backend/app/api/v1/routers/flashcards/router.py:153-167 | A review does not change the card's ease factor, interval, repetitions or next review date. |
| Flashcards.ListReviews | backend/app/api/v1/routers/flashcards/router.py:174-187 | 404 for a card the caller does not own. Otherwise the result holds exactly the caller's reviews of that card, each as often as stored, newest first. |
| Flashcards.AddTagsToFlashcard | backend/app/api/v1/routers/flashcards/router.py:190-209 | 404 for a card the caller does not own. Otherwise only that card's tags change, as `Tags.AttachTags` describes, and store validity and counts are preserved. |
| Tags.AttachTags | backend/app/api/v1/routers/flashcards/router.py:199-205 | Existing tags are kept, in order, as a prefix. Each added tag exists, belongs to the caller and was requested, and every such requested tag ends up attached. A duplicate-free list stays duplicate-free. |
| Tags.Detach | backend/app/api/v1/routers/notes/router.py:166-167 | Removing an absent tag is a no-op. Removing a present tag drops one entry; from a duplicate-free list that is the only occurrence, and every other tag stays. |
| Tags.AttachThenDetach | backend/app/api/v1/routers/notes/router.py:137-167 | Attaching a tag and then detaching it leaves it absent, and the other tags are exactly those before. |
| StudyGroups.GetGroup | backend/app/api/v1/routers/study_groups/router.py:93-103 | 404 for a missing group. 403 exactly when the group is private and the caller is not a member. Otherwise the stored group is returned. |
| StudyGroups.ListMembers | backend/app/api/v1/routers/study_groups/router.py:194-209 | Fails exactly as the group read does. Otherwise it returns exactly the group's memberships, and their number is the group's member count. |
| StudyGroups.ListResources | backend/app/api/v1/routers/study_groups/router.py:233-248 | Fails exactly as the group read does. Otherwise it returns exactly the resources shared in that group, each as often as it is stored. |
| StudyGroups.CreateGroup | backend/app/api/v1/routers/study_groups/router.py:65-90 | Fails with a database error exactly when the invite code is already used. Otherwise it adds the group with the caller as creator, and the caller's single membership with role "creator". |
| StudyGroups.JoinGroup | backend/app/api/v1/routers/study_groups/router.py:139-171 | Checks run in order: 404 for a missing group; 403 for a private group and a wrong code; 409 when already a member; 409 when the group is at capacity. Success adds exactly one "member" row, never pushing the count above the maximum. |
| StudyGroups.LeaveGroup | backend/app/api/v1/routers/study_groups/router.py:174-191 | 404 for a missing group, 400 for the creator, 404 for a non-member. Success removes exactly the caller's membership in that group. |
| StudyGroups.RemoveMember | backend/app/api/v1/routers/study_groups/router.py:212-230 | 404 for a missing group. 403 unless the caller is the creator. 404 for a non-member target. 400 when the creator targets themselves. Success removes exactly the target's membership. |
| StudyGroups.ShareResource | backend/app/api/v1/routers/study_groups/router.py:251-273 | Succeeds exactly when the group exists and the caller is a member, otherwise 404 or 403. Success appends one resource attributed to the caller. |
| StudyGroups.FindResource | backend/app/api/v1/routers/study_groups/router.py:285-291 | Locates a resource with the given id in the given group, or reports that none exists. |
| StudyGroups.DeleteResource | backend/app/api/v1/routers/study_groups/router.py:276-299 | 404 for a missing group or resource. 403 "Not authorized to remove this resource" exactly when the caller neither shared it nor created the group. Success removes exactly that resource. |
| StudyGroups.FilterKeepsNoDuplicates | backend/app/api/v1/routers/study_groups/router.py:187-190 | Deleting membership rows never introduces a duplicate (group, user) pair. |
| StudyGroups.RemovalKeepsCreators | backend/app/api/v1/routers/study_groups/router.py:181-185 | Removing a non-creator's membership keeps every group's creator a member with role "creator". |
| StudyGroups.CreateKeepsValid | backend/app/api/v1/routers/study_groups/router.py:65-90 | Group creation preserves referential integrity, unique memberships, creators-are-members and unique invite codes. |
| StudyGroups.JoinKeepsValid | backend/app/api/v1/routers/study_groups/router.py:151-168 | A successful join preserves the same invariants. In particular the duplicate check means no second membership is created. |
| StudyGroups.LeaveKeepsValid | backend/app/api/v1/routers/study_groups/router.py:181-190 | A successful leave preserves the invariants. The creator's membership survives because the creator cannot leave. |
| StudyGroups.RemoveKeepsValid | backend/app/api/v1/routers/study_groups/router.py:220-229 | A successful removal preserves the invariants. The creator's membership survives because the creator cannot be removed. |
| StudyGroups.ShareKeepsValid | backend/app/api/v1/routers/study_groups/router.py:259-271 | Sharing a resource preserves the invariants: the new resource belongs to an existing group and nothing about memberships changes. |
| StudyGroups.DeleteResourceKeepsValid | backend/app/api/v1/routers/study_groups/router.py:292-299 | Deleting a resource preserves the invariants. |
| StudyGroups.JoinThenLeave | backend/app/api/v1/routers/study_groups/router.py:139-191 | For a non-creator, a successful join followed by a leave restores the original store exactly. |
| Notes.FindNote | backend/app/api/v1/routers/notes/router.py:76-80 | Finds the first note with the given id that the caller owns, or reports that none exists. |
| Notes.GetNote | backend/app/api/v1/routers/notes/router.py:69-81 | 404 exactly when the caller owns no note with that id. Otherwise it returns such a stored note. |
| Notes.MatchingNotes | backend/app/api/v1/routers/notes/router.py:33-40 | Exactly the caller's notes that pass every supplied filter (subject, archived, pinned), each as often as stored, in descending `updated_at` order. |
| Notes.ListNotes | backend/app/api/v1/routers/notes/router.py:23-43 | Fails only for a negative skip or limit. Otherwise it is exactly the page of the filtered, ordered list from position skip, still in descending `updated_at` order. |
| Notes.NoFilterListsAllOwn | backend/app/api/v1/routers/notes/router.py:33-39 | With no filter supplied, the listing holds exactly the caller's notes. |
| Notes.AddTagsToNote | backend/app/api/v1/routers/notes/router.py:123-147 | 404 for a note the caller does not own. Otherwise only that note's tags change: existing, caller-owned tags not yet present are appended. |
| Notes.RemoveTagFromNote | backend/app/api/v1/routers/notes/router.py:150-171 | 404 for a note the caller does not own. Otherwise the tag is dropped if it exists and is attached, and nothing happens if not. Tag ownership is not consulted. |
| Notes.AddTagsKeepsValid | backend/app/api/v1/routers/notes/router.py:137-143 | Adding tags keeps every note's tag list duplicate-free and referring to existing tags. |
| Notes.RemoveTagKeepsValid | backend/app/api/v1/routers/notes/router.py:164-167 | Removing a tag keeps the same invariant. |
| Notes.AddThenRemoveTag | backend/app/api/v1/routers/notes/router.py:137-167 | Adding a tag to an owned note and then removing it leaves that tag absent and every other tag on the note as before. |
| Notes.FindUnique | backend/app/api/v1/routers/notes/router.py:76-80 | The lookup returns the first owned note with the id, so the row it finds is determined by the table. |
| Users.ById | backend/app/api/v1/dependencies.py:40-41 | A lookup by id finds a user carrying that id exactly when one exists. |
| Users.ByIdExact | backend/app/api/v1/dependencies.py:40-41 | With unique ids, the lookup by a user's id returns that very user. |
| Dependencies.GetCurrentUser | backend/app/api/v1/dependencies.py:17-49 | 401 "Could not validate credentials" for an undecodable token, a missing subject, a non-"access" type, an unparsable UUID or an unknown user. The 401 "User account is disabled" is returned exactly when a well-formed access token names an existing, inactive user. Otherwise it returns an active stored user whose id is the parsed subject. |
| Dependencies.RefreshTokensRejected | backend/app/api/v1/dependencies.py:28-31 | Claims minted as a refresh token never authenticate a request. |
| Dependencies.AccessClaimsAuthenticate | backend/app/api/v1/dependencies.py:26-49 | Claims minted as an access token for an active user, whose subject parses back to that user's id, authenticate exactly that user. |
| Auth.Register | backend/app/api/v1/routers/auth/router.py:41-62 | 409 for a taken email, then 409 for a taken username. Otherwise exactly one active, unverified user is appended, with the given email, username and hash and with full name, timezone and daily study goal copied from the payload. |
| Auth.RegisterKeepsValid | backend/app/api/v1/routers/auth/router.py:43-58 | Registration keeps ids, emails and usernames unique across users. |
| Auth.LookupLogin | backend/app/api/v1/routers/auth/router.py:70-74 | The identifier is matched as an email first and only then as a username. Nothing is found exactly when it is neither. |
| Auth.Login | backend/app/api/v1/routers/auth/router.py:65-100 | 401 for an unknown identifier or a wrong password. 401 "disabled" exactly for an inactive account whose password matched. A refresh-token string already stored gives a 500. Otherwise one unrevoked refresh record for the user is stored, expiring 7 days after now. |
| Auth.WrongPasswordHidesAccountState | backend/app/api/v1/routers/auth/router.py:76-83 | A wrong password gets the same error whether or not the account is active. |
| Auth.LoginKeepsValid | backend/app/api/v1/routers/auth/router.py:89-95 | Login keeps users unique and refresh-token strings unique. |
| Auth.Refresh | backend/app/api/v1/routers/auth/router.py:103-131 | The acceptance rule: the token decodes; its type is "refresh"; an unrevoked record for it exists; the record's expiry is not before now. A token expiring exactly now is accepted. Success yields the record's user. |
| Auth.LoginThenRefresh | backend/app/api/v1/routers/auth/router.py:89-128 | The token just issued by a login refreshes to the same user at any time up to 7 days later. After that, the stored record's expiry rejects it, as long as the payload still decodes; in the program the JWT's own `exp` claim normally rejects it earlier, during decoding. |
| Auth.Logout | backend/app/api/v1/routers/auth/router.py:134-150 | Always succeeds. It revokes the caller's matching record, if any, and changes nothing else. |
| Auth.LogoutIdempotent | backend/app/api/v1/routers/auth/router.py:140-150 | Logging out twice with the same token is the same as logging out once. |
| Auth.LogoutKeepsValid | backend/app/api/v1/routers/auth/router.py:140-150 | Logout preserves user and token uniqueness. |
| Auth.LogoutThenRefreshFails | backend/app/api/v1/routers/auth/router.py:113-150 | After the owner logs out a token, refreshing with it fails with "not found or revoked". |
| Ai.GetConversation | backend/app/api/v1/routers/ai/router.py:30-42 | A conversation is visible exactly when it exists and belongs to the caller; otherwise 404. |
| Ai.GetMessage | backend/app/api/v1/routers/ai/router.py:45-56 | A message is visible exactly when its conversation belongs to the caller; otherwise 404. |
| Ai.ConversationMessages | backend/app/api/v1/routers/ai/router.py:152-155 | Exactly the conversation's messages passing the optional role filter, each as often as stored, in ascending `message_order`. |
| Ai.ListMessages | backend/app/api/v1/routers/ai/router.py:142-158 | 404 for a conversation not the caller's. 500 for negative paging bounds. Otherwise it is the page of the filtered, ordered messages from position skip. |
| Ai.MessageThread | backend/app/api/v1/routers/ai/router.py:204-223 | The root message first, then exactly its direct replies in its conversation, in ascending `message_order`. A missing or foreign root gives 404. |
| Ai.GrandchildrenExcluded | backend/app/api/v1/routers/ai/router.py:212-223 | A reply to a reply never appears in the thread view. |
| Ai.CreateMessage | backend/app/api/v1/routers/ai/router.py:161-191 | 404 for a conversation not the caller's. 500 when the order is already taken or the parent does not exist. Otherwise the message is appended, `total_messages` rises by exactly one, and `last_message_at` is now. |
| Ai.CreateMessageKeepsInvariants | backend/app/api/v1/routers/ai/router.py:170-188 | Creating a message keeps `message_order` unique per conversation, each conversation's `total_messages` equal to its message count, and no message its own parent. |
| Ai.GenerateFlashcards | backend/app/api/v1/routers/ai/router.py:263-279 | Appends one "flashcards" record for the caller, whose content holds only the requested count and status "queued". Nothing else changes. |
| Ai.GenerateSummary | backend/app/api/v1/routers/ai/router.py:282-298 | Appends one "summary" record for the caller with status "queued". Nothing else changes. |
| Ai.GenerateKeepsInvariants | backend/app/api/v1/routers/ai/router.py:269-293 | Both generate endpoints add only queued placeholders: "flashcards" records carry a count and "summary" records do not. Conversation and message invariants are untouched. |
| Ai.DeleteChatbotSession | backend/app/api/v1/routers/ai/router.py:363-379 | 404 unless a session with that token belongs to the caller. Otherwise exactly one such session is removed, and nothing else changes. |
| Ai.DeleteSessionSparesOthers | backend/app/api/v1/routers/ai/router.py:369-378 | Other users' sessions survive any delete. |
| Admin.CreateSystemPrompt | backend/app/api/v1/admin/router.py:34-63 | 409 exactly when the name is taken. A missing parent gives a database error. Otherwise exactly one prompt is added, unused and unrated, with every text, version, flag and parent field taken from the payload. |
| Admin.GetSystemPrompt | backend/app/api/v1/admin/router.py:66-78 | 404 exactly when the prompt is missing; otherwise it returns the stored prompt. |
| Admin.Merge | backend/app/api/v1/admin/router.py:105-107 | Each of the eleven updatable fields: present in the update, it replaces the stored one; absent, it is left as it was. The id and creation time never change. |
| Admin.EmptyUpdateIsIdentity | backend/app/api/v1/admin/router.py:105-107 | An update with no fields leaves the prompt unchanged. |
| Admin.UpdateSystemPrompt | backend/app/api/v1/admin/router.py:81-111 | 404 for a missing prompt. 409 exactly when a new, different name is already taken. Otherwise 500 when the new parent id names no stored prompt (a foreign-key violation). Otherwise only that prompt changes, by the field-wise merge. |
| Admin.DeleteSystemPrompt | backend/app/api/v1/admin/router.py:114-127 | 404 exactly when the prompt is missing. A prompt with versions cannot be deleted: the ORM nulls the versions' NOT NULL prompt reference and the commit fails with a 500. Otherwise exactly that key is removed, and child prompts lose their parent. Nothing else changes. |
| Admin.CreateKeepsNamesUnique | backend/app/api/v1/admin/router.py:40-47 | Successful creation keeps prompt names unique. |
| Admin.UpdateKeepsNamesUnique | backend/app/api/v1/admin/router.py:95-103 | Successful update, including a rename, keeps prompt names unique. |
| Admin.DeleteKeepsNamesUnique | backend/app/api/v1/admin/router.py:114-127 | Deletion keeps prompt names unique. |
| Admin.CreateKeepsReferences | backend/app/api/v1/admin/router.py:49-59 | Creation keeps every parent and every version pointing at a stored prompt. |
| Admin.UpdateKeepsReferences | backend/app/api/v1/admin/router.py:105-107 | Update keeps the same referential invariant. |
| Admin.DeleteKeepsReferences | backend/app/api/v1/admin/router.py:124-127 | A successful delete leaves no version and no child prompt pointing at the removed prompt. |
| Admin.KeepingOwnNameAllowed | backend/app/api/v1/admin/router.py:95-103 | Resubmitting a prompt's own name never triggers the name conflict. |
| Admin.ListPromptVersions | backend/app/api/v1/admin/router.py:130-148 | 404 for a missing prompt. Otherwise exactly that prompt's versions, each as often as stored, in descending version number. |
| Jobs.Reset | backend/app/api/v1/routers/jobs/router.py:55-59 | The status becomes "pending" and the processing outputs are cleared. Every upload field is unchanged. |
| Jobs.ResetDeterminedByUpload | backend/app/api/v1/routers/jobs/router.py:55-59 | The reset document depends only on the upload fields, not on any earlier processing state. |
| Jobs.GetProcessingStatus | backend/app/api/v1/routers/jobs/router.py:16-36 | 404 exactly when the document is missing or not the caller's. Otherwise it reports that document's stored status. |
| Jobs.ReprocessDocument | backend/app/api/v1/routers/jobs/router.py:39-66 | 404 exactly when the document is missing or not the caller's. Otherwise only that document changes, by the reset, and the reply carries the detail "Document reprocessing queued", the document id and the stored status "pending". |
| Jobs.ReprocessIdempotent | backend/app/api/v1/routers/jobs/router.py:55-59 | Reprocessing twice leaves the same documents as reprocessing once. |
| Jobs.ReprocessThenStatus | backend/app/api/v1/routers/jobs/router.py:16-66 | Right after a reprocess, the status endpoint reports "pending". |

## Left out

- HTTP routing, FastAPI dependency injection, async sessions, `commit`/`refresh` and transaction isolation. Each handler is a pure state transition, and an error leaves the state unchanged.
- JWT encoding and decoding, bcrypt, and `uuid.UUID` parsing. These are foreign libraries, so the decoded payload, the password check and the UUID parser are inputs.
- Wall-clock reads. The current time or date is an integer parameter.
- `study_sessions/router.py`. Its duration uses floating-point minutes, and its logic is outside this model.
- Decimal and Numeric columns (ease factor, rating). Their values are opaque and are only copied.
- The generic PATCH handlers for flashcards, decks, notes, groups and conversations, and `delete_group`. They copy arbitrary fields; in particular they can overwrite the card and deck counters and, through the conversation PATCH (`AiConversationUpdate.total_messages`), a conversation's message count. So `Flashcards` counter invariants and `Ai.CountsAccurate` are stated only over the modelled transitions. Only the explicit merges of daily progress and system prompts are modelled.
- An explicit JSON `null` in a PATCH payload. It is treated as an absent field.
- Flashcards.DeleteFlashcard: the card's embedding vectors and tag links are not part of the model. A card's `tags` list stands in for its link rows. `Flashcard.embedding_vectors` (backend/app/models/flashcard.py:48-52) has no cascade and `EmbeddingVector.source_id` is NOT NULL (backend/app/models/embedding_vector.py:26). So in the program, deleting a card that has embedding vectors fails with a 500, while the model returns Ok.
- Admin.DeleteSystemPrompt: chatbot sessions referring to the prompt are not part of this store. The ORM would null their nullable `system_prompt_id`.
- Pure CRUD routers with no decision logic: subjects, goals, documents, users, decks. Also the plain list endpoints for groups, conversations, generated content, prompts and daily progress, and the audit-log, feedback and metrics endpoints.
- `scalar_one_or_none` raising on several matches. The uniqueness invariants rule that out, so lookups take the first match.
- The `(x or 0)` defaults on counters. The counters are non-null columns with default 0, so they are plain integers.
- Flashcards.DueCards: the due listing has no ORDER BY, so the model keeps storage order. The database may return another order.
- Flashcards.CreateFlashcard: a deck's `total_cards` is a non-null integer, so the `None` case of the increment is not modelled.
- Ai.CreateMessage: `total_messages` is a non-null integer, so its `None` case is not modelled, and `last_message_at` is set to the `now` parameter.
- Dependencies.GetCurrentUser: the token's `exp` claim is checked inside JWT decoding, which is an input here. An expired token arrives as an undecodable one.
- Auth.Refresh: the decoded payload is an input, so the model does not tie it to the refresh record's lifetime. In the program, a refresh token's signed `exp` (backend/app/core/security.py:31-34, 7 days after issue) makes decoding fail once it passes. So "Invalid refresh token", not "Refresh token has expired", is the usual answer for an old token. The expired answer is reachable only when the payload still decodes.
- Auth.LoginThenRefresh: its after-expiry half assumes the payload still decodes at the later time. In the program the JWT's own expiry usually rejects the token first, with "Invalid refresh token".
- Integer columns are 32-bit `Integer` (int4) in PostgreSQL. A payload value outside that range (`message_order`, `total_study_minutes`, `quality_rating`, `version`, `max_members`, and the other integer fields) makes the insert fail with a 500. The model uses unbounded integers and accepts such values.
- Fresh ids are parameters, with a freshness precondition, instead of being drawn from `uuid4`. The refresh-token string is a parameter too. In the program it is the signed JWT of subject, type and expiry (backend/app/core/security.py:31-35), so two logins of one user in the same second produce the same string. The second insert then hits the unique `token` column (backend/app/models/refresh_token.py:20) and fails with a 500. The model has no freshness precondition on it: `Auth.Login` returns `DatabaseError` when the string is already stored.

=== FILE: admin.dfy ===
/** The system-prompt part of the admin router: prompt names stay unique
    under create and rename, PATCH merges only the supplied fields, and a
    prompt's versions are listed newest first. */
module Admin {
  import opened Common
  import Ordering

  /** `Numeric` columns (average rating) are carried as opaque decimal text. */
  datatype Decimal = Decimal(text: string)

  datatype Prompt = Prompt(
    id: Id,
    name: string,
    category: Option<string>,
    description: Option<string>,
    systemPrompt: string,
    userPromptTemplate: Option<string>,
    recommendedModel: Option<string>,
    version: int,
    isActive: bool,
    parent: Option<Id>,
    timesUsed: int,
    avgRating: Option<Decimal>,
    createdAt: int)

  /** One row of `system_prompt_versions`. */
  datatype PromptVersion = PromptVersion(
    id: Id,
    prompt: Id,
    versionNumber: int,
    systemPrompt: string,
    userPromptTemplate: string,
    changeDescription: string)

  datatype PromptCreate = PromptCreate(
    name: string,
    category: Option<string>,
    description: Option<string>,
    systemPrompt: string,
    userPromptTemplate: Option<string>,
    recommendedModel: Option<string>,
    version: int,
    isActive: bool,
    parent: Option<Id>)

  /** The fields a PATCH request sets; `None` is a field left unset. */
  datatype PromptUpdate = PromptUpdate(
    name: Option<string>,
    category: Option<string>,
    description: Option<string>,
    systemPrompt: Option<string>,
    userPromptTemplate: Option<string>,
    recommendedModel: Option<string>,
    version: Option<int>,
    isActive: Option<bool>,
    parent: Option<Id>,
    timesUsed: Option<int>,
    avgRating: Option<Decimal>)

  datatype Store = Store(prompts: map<Id, Prompt>, versions: seq<PromptVersion>)

  const PromptNotFound := Error(NOT_FOUND, "System prompt not found")
  const NameConflict := Error(CONFLICT, "A system prompt with this name already exists")

  /** The unique constraint on `system_prompts.prompt_name`. */
  ghost predicate NamesUnique(prompts: map<Id, Prompt>)
  {
    forall a, b :: a in prompts && b in prompts && a != b ==> prompts[a].name != prompts[b].name
  }

  /** Every parent and every version refers to a stored prompt. */
  ghost predicate ReferencesResolve(st: Store)
  {
    && (forall k :: k in st.prompts && st.prompts[k].parent.Some? ==> st.prompts[k].parent.value in st.prompts)
    && (forall i :: 0 <= i < |st.versions| ==> st.versions[i].prompt in st.prompts)
  }

  predicate NameTaken(prompts: map<Id, Prompt>, name: string)
  {
    exists k :: k in prompts && prompts[k].name == name
  }

  /** A parent that names no prompt violates the self-referencing foreign key. */
  predicate ParentMissing(prompts: map<Id, Prompt>, parent: Option<Id>)
  {
    parent.Some? && parent.value !in prompts
  }

  /** POST /admin/system-prompts: 409 for a taken name; otherwise the prompt
      is stored with no uses and no rating yet. */
  function CreateSystemPrompt(st: Store, payload: PromptCreate, id: Id, now: int): (r: Result<Store>)
    requires id !in st.prompts
    ensures NameTaken(st.prompts, payload.name) ==> r == Fail(NameConflict)
    ensures r.Ok? <==> !NameTaken(st.prompts, payload.name) && !ParentMissing(st.prompts, payload.parent)
    ensures !NameTaken(st.prompts, payload.name) && r.Fail? ==> r.error == DatabaseError
    ensures r.Ok? ==> id in r.value.prompts && r.value.prompts == st.prompts[id := r.value.prompts[id]]
    ensures r.Ok? ==> r.value.versions == st.versions
    ensures r.Ok? ==> var p := r.value.prompts[id];
              p.name == payload.name && p.systemPrompt == payload.systemPrompt && p.version == payload.version
              && p.category == payload.category && p.description == payload.description
              && p.userPromptTemplate == payload.userPromptTemplate && p.recommendedModel == payload.recommendedModel
              && p.isActive == payload.isActive && p.parent == payload.parent
              && p.timesUsed == 0 && p.avgRating.None?
  {
    if NameTaken(st.prompts, payload.name) then Fail(NameConflict)
    else if ParentMissing(st.prompts, payload.parent) then Fail(DatabaseError)
    else
      var p := Prompt(id, payload.name, payload.category, payload.description, payload.systemPrompt,
                      payload.userPromptTemplate, payload.recommendedModel, payload.version, payload.isActive,
                      payload.parent, 0, None, now);
      Ok(st.(prompts := st.prompts[id := p]))
  }

  /** GET /admin/system-prompts/{id}. */
  function GetSystemPrompt(st: Store, id: Id): (r: Result<Prompt>)
    ensures r.Fail? <==> id !in st.prompts
    ensures r.Fail? ==> r.error == PromptNotFound
    ensures r.Ok? ==> r.value == st.prompts[id]
  {
    if id !in st.prompts then Fail(PromptNotFound) else Ok(st.prompts[id])
  }

  function Pick<T>(o: Option<T>, current: T): T
  {
    if o.Some? then o.value else current
  }

  function PickOpt<T>(o: Option<T>, current: Option<T>): Option<T>
  {
    if o.Some? then o else current
  }

  /** The `setattr` loop over the supplied fields. */
  function Merge(p: Prompt, u: PromptUpdate): (r: Prompt)
    ensures r.id == p.id && r.createdAt == p.createdAt
    ensures u.name.None? ==> r.name == p.name
    ensures u.name.Some? ==> r.name == u.name.value
    ensures u.systemPrompt.None? ==> r.systemPrompt == p.systemPrompt
    ensures u.systemPrompt.Some? ==> r.systemPrompt == u.systemPrompt.value
    ensures u.version.None? ==> r.version == p.version
    ensures u.version.Some? ==> r.version == u.version.value
    ensures u.isActive.None? ==> r.isActive == p.isActive
    ensures u.isActive.Some? ==> r.isActive == u.isActive.value
    ensures u.timesUsed.None? ==> r.timesUsed == p.timesUsed
    ensures u.timesUsed.Some? ==> r.timesUsed == u.timesUsed.value
    ensures u.category.None? ==> r.category == p.category
    ensures u.category.Some? ==> r.category == u.category
    ensures u.description.None? ==> r.description == p.description
    ensures u.description.Some? ==> r.description == u.description
    ensures u.userPromptTemplate.None? ==> r.userPromptTemplate == p.userPromptTemplate
    ensures u.userPromptTemplate.Some? ==> r.userPromptTemplate == u.userPromptTemplate
    ensures u.recommendedModel.None? ==> r.recommendedModel == p.recommendedModel
    ensures u.recommendedModel.Some? ==> r.recommendedModel == u.recommendedModel
    ensures u.parent.None? ==> r.parent == p.parent
    ensures u.parent.Some? ==> r.parent == u.parent
    ensures u.avgRating.None? ==> r.avgRating == p.avgRating
    ensures u.avgRating.Some? ==> r.avgRating == u.avgRating
  {
    Prompt(p.id, Pick(u.name, p.name), PickOpt(u.category, p.category), PickOpt(u.description, p.description),
           Pick(u.systemPrompt, p.systemPrompt), PickOpt(u.userPromptTemplate, p.userPromptTemplate),
           PickOpt(u.recommendedModel, p.recommendedModel), Pick(u.version, p.version), Pick(u.isActive, p.isActive),
           PickOpt(u.parent, p.parent), Pick(u.timesUsed, p.timesUsed), PickOpt(u.avgRating, p.avgRating), p.createdAt)
  }

  /** A PATCH with no field supplied leaves the prompt as it was. */
  lemma EmptyUpdateIsIdentity(p: Prompt)
    ensures Merge(p, PromptUpdate(None, None, None, None, None, None, None, None, None, None, None)) == p
  {
  }

  /** PATCH /admin/system-prompts/{id}: 404 for a missing prompt; 409 when a
      new, different name is taken; otherwise the supplied fields are merged. */
  function UpdateSystemPrompt(st: Store, id: Id, u: PromptUpdate): (r: Result<Store>)
    ensures id !in st.prompts ==> r == Fail(PromptNotFound)
    ensures id in st.prompts && u.name.Some? && u.name.value != st.prompts[id].name && NameTaken(st.prompts, u.name.value) ==>
              r == Fail(NameConflict)
    ensures id in st.prompts && !(u.name.Some? && u.name.value != st.prompts[id].name && NameTaken(st.prompts, u.name.value))
            && ParentMissing(st.prompts, u.parent) ==>
              r == Fail(DatabaseError)
    ensures r.Ok? <==> id in st.prompts
                       && !(u.name.Some? && u.name.value != st.prompts[id].name && NameTaken(st.prompts, u.name.value))
                       && !ParentMissing(st.prompts, u.parent)
    ensures r.Ok? ==> r.value == st.(prompts := st.prompts[id := Merge(st.prompts[id], u)])
  {
    if id !in st.prompts then Fail(PromptNotFound)
    else
      var p := st.prompts[id];
      if u.name.Some? && u.name.value != p.name && NameTaken(st.prompts, u.name.value) then Fail(NameConflict)
      else if ParentMissing(st.prompts, u.parent) then Fail(DatabaseError)
      else Ok(st.(prompts := st.prompts[id := Merge(p, u)]))
  }

  /** Some stored version belongs to prompt `id`. */
  predicate HasVersions(versions: seq<PromptVersion>, id: Id)
  {
    exists i :: 0 <= i < |versions| && versions[i].prompt == id
  }

  /** The ORM's treatment of a child prompt when prompt `id` is deleted: the
      nullable `parent_prompt_id` pointing at it is set to NULL. */
  function Orphan(p: Prompt, id: Id): Prompt
  {
    if p.parent == Some(id) then p.(parent := None) else p
  }

  /** DELETE /admin/system-prompts/{id}: 404 for a missing prompt. Neither
      `versions` nor `child_prompts` cascades, so the ORM nulls the foreign
      keys pointing at the prompt: the NOT NULL `prompt_id` of a version makes
      the commit fail, while child prompts lose their parent. */
  function DeleteSystemPrompt(st: Store, id: Id): (r: Result<Store>)
    ensures r == Fail(PromptNotFound) <==> id !in st.prompts
    ensures id in st.prompts && HasVersions(st.versions, id) ==> r == Fail(DatabaseError)
    ensures r.Ok? <==> id in st.prompts && !HasVersions(st.versions, id)
    ensures r.Ok? ==> r.value.prompts.Keys == st.prompts.Keys - {id} && r.value.versions == st.versions
    ensures r.Ok? ==> forall k :: k in r.value.prompts ==> r.value.prompts[k].parent != Some(id)
    ensures r.Ok? ==> forall k :: k in r.value.prompts && st.prompts[k].parent != Some(id) ==> r.value.prompts[k] == st.prompts[k]
    ensures r.Ok? ==> forall k :: k in r.value.prompts ==> r.value.prompts[k] == st.prompts[k].(parent := r.value.prompts[k].parent)
  {
    if id !in st.prompts then Fail(PromptNotFound)
    else if HasVersions(st.versions, id) then Fail(DatabaseError)
    else Ok(st.(prompts := map k | k in st.prompts && k != id :: Orphan(st.prompts[k], id)))
  }

  // ---------------------------------------------------------------------------
  // Name uniqueness

  lemma CreateKeepsNamesUnique(st: Store, payload: PromptCreate, id: Id, now: int)
    requires NamesUnique(st.prompts) && id !in st.prompts
    requires CreateSystemPrompt(st, payload, id, now).Ok?
    ensures NamesUnique(CreateSystemPrompt(st, payload, id, now).value.prompts)
  {
  }

  lemma UpdateKeepsNamesUnique(st: Store, id: Id, u: PromptUpdate)
    requires NamesUnique(st.prompts)
    requires UpdateSystemPrompt(st, id, u).Ok?
    ensures NamesUnique(UpdateSystemPrompt(st, id, u).value.prompts)
  {
    var ps := UpdateSystemPrompt(st, id, u).value.prompts;
    forall a, b | a in ps && b in ps && a != b ensures ps[a].name != ps[b].name {
      if a == id {
        assert ps[b] == st.prompts[b];
      } else if b == id {
        assert ps[a] == st.prompts[a];
      }
    }
  }

  lemma DeleteKeepsNamesUnique(st: Store, id: Id)
    requires NamesUnique(st.prompts)
    requires DeleteSystemPrompt(st, id).Ok?
    ensures NamesUnique(DeleteSystemPrompt(st, id).value.prompts)
  {
  }

  // ---------------------------------------------------------------------------
  // Foreign keys

  lemma CreateKeepsReferences(st: Store, payload: PromptCreate, id: Id, now: int)
    requires ReferencesResolve(st) && id !in st.prompts
    requires CreateSystemPrompt(st, payload, id, now).Ok?
    ensures ReferencesResolve(CreateSystemPrompt(st, payload, id, now).value)
  {
  }

  lemma UpdateKeepsReferences(st: Store, id: Id, u: PromptUpdate)
    requires ReferencesResolve(st)
    requires UpdateSystemPrompt(st, id, u).Ok?
    ensures ReferencesResolve(UpdateSystemPrompt(st, id, u).value)
  {
  }

  /** A successful delete leaves no version and no prompt pointing at a
      missing prompt. */
  lemma DeleteKeepsReferences(st: Store, id: Id)
    requires ReferencesResolve(st)
    requires DeleteSystemPrompt(st, id).Ok?
    ensures ReferencesResolve(DeleteSystemPrompt(st, id).value)
  {
  }

  /** Re-submitting a prompt's own name is never a conflict. */
  lemma KeepingOwnNameAllowed(st: Store, id: Id, u: PromptUpdate)
    requires id in st.prompts && u.name == Some(st.prompts[id].name)
    ensures UpdateSystemPrompt(st, id, u).Fail? ==> UpdateSystemPrompt(st, id, u).error == DatabaseError
  {
  }

  // ---------------------------------------------------------------------------
  // Versions

  function VersionNumber(v: PromptVersion): int { v.versionNumber }

  /** GET /admin/system-prompts/{id}/versions: 404 for a missing prompt;
      otherwise the prompt's versions, highest version number first. */
  function ListPromptVersions(st: Store, id: Id): (r: Result<seq<PromptVersion>>)
    ensures r.Fail? <==> id !in st.prompts
    ensures r.Fail? ==> r.error == PromptNotFound
    ensures r.Ok? ==> Ordering.Descending(r.value, VersionNumber)
    ensures r.Ok? ==> forall v :: v in r.value <==> v in st.versions && v.prompt == id
    ensures r.Ok? ==> forall v :: v in st.versions ==> multiset(r.value)[v] == if v.prompt == id then multiset(st.versions)[v] else 0
  {
    if id !in st.prompts then Fail(PromptNotFound)
    else
      var mine := Filter(st.versions, (v: PromptVersion) => v.prompt == id);
      var sorted := Ordering.SortDesc(mine, VersionNumber);
      Ordering.MultisetSameMembers(mine, sorted);
      Ok(sorted)
  }
}

=== FILE: ai.dfy ===
/** The AI router: owner-scoped conversation and message lookups, the
    message listing and thread view, message creation with its conversation
    counter, generation placeholders and chatbot-session deletion. */
module Ai {
  import opened Common
  import Ordering

  datatype Conversation = Conversation(
    id: Id,
    owner: Id,
    subject: Option<Id>,
    title: Option<string>,
    isArchived: bool,
    totalMessages: int,
    lastMessageAt: Option<int>)

  /** The columns of a message copied verbatim from the request; opaque here. */
  datatype MessageBody = MessageBody(
    content: Option<string>,
    contentPreview: Option<string>,
    threadDepth: int,
    isThreadRoot: bool,
    contextWindowPosition: Option<int>,
    hasLargeContent: bool,
    tokensUsed: Option<int>,
    modelUsed: Option<string>,
    processingTimeMs: Option<int>)

  /** One row of `ai_messages`; `messageOrder` is unique within a conversation. */
  datatype Message = Message(id: Id, conversation: Id, parent: Option<Id>, role: string, messageOrder: int, body: MessageBody)

  datatype MessageCreate = MessageCreate(parent: Option<Id>, role: string, messageOrder: int, body: MessageBody)

  /** One row of `ai_generated_content`. */
  datatype Generated = Generated(id: Id, owner: Id, contentType: string, sourceType: string, sourceId: Id, content: map<string, Json>)

  datatype GenerateRequest = GenerateRequest(sourceType: string, sourceId: Id, count: Option<int>)

  /** One row of `chatbot_sessions` (its configuration columns are not modelled). */
  datatype ChatbotSession = ChatbotSession(id: Id, owner: Id, token: string, conversation: Option<Id>)

  datatype Store = Store(
    conversations: map<Id, Conversation>,
    messages: seq<Message>,
    generated: seq<Generated>,
    sessions: seq<ChatbotSession>)

  datatype MessageSaved = MessageSaved(store: Store, message: Message)

  const ConversationNotFound := Error(NOT_FOUND, "Conversation not found")
  const MessageNotFound := Error(NOT_FOUND, "Message not found")

  // ---------------------------------------------------------------------------
  // Invariants

  /** The unique constraint on (conversation_id, message_order). */
  ghost predicate OrdersUnique(messages: seq<Message>)
  {
    forall i, j :: 0 <= i < j < |messages| ==>
      !(messages[i].conversation == messages[j].conversation && messages[i].messageOrder == messages[j].messageOrder)
  }

  function InConversation(c: Id): Message -> bool
  {
    (m: Message) => m.conversation == c
  }

  /** Every conversation's `total_messages` equals the number of its messages. */
  ghost predicate CountsAccurate(st: Store)
  {
    forall c :: c in st.conversations ==> st.conversations[c].totalMessages == |Filter(st.messages, InConversation(c))|
  }

  /** No message is its own parent. */
  ghost predicate NoSelfParent(messages: seq<Message>)
  {
    forall m :: m in messages ==> m.parent != Some(m.id)
  }

  predicate MessageIdUsed(messages: seq<Message>, id: Id)
  {
    exists i :: 0 <= i < |messages| && messages[i].id == id
  }

  // ---------------------------------------------------------------------------
  // Ownership-scoped lookups

  /** `_get_conversation`: the caller's conversation, or 404. */
  function GetConversation(st: Store, caller: Id, c: Id): (r: Result<Conversation>)
    ensures r.Ok? <==> c in st.conversations && st.conversations[c].owner == caller
    ensures r.Fail? ==> r.error == ConversationNotFound
    ensures r.Ok? ==> r.value == st.conversations[c]
  {
    if c in st.conversations && st.conversations[c].owner == caller then Ok(st.conversations[c])
    else Fail(ConversationNotFound)
  }

  predicate VisibleTo(st: Store, caller: Id, m: Message)
  {
    m.conversation in st.conversations && st.conversations[m.conversation].owner == caller
  }

  function MessageWithId(st: Store, caller: Id, id: Id): Message -> bool
  {
    (m: Message) => m.id == id && VisibleTo(st, caller, m)
  }

  /** `_get_message`: a message with this id in one of the caller's conversations, or 404. */
  function GetMessage(st: Store, caller: Id, id: Id): (r: Result<Message>)
    ensures r.Ok? <==> exists i :: 0 <= i < |st.messages| && st.messages[i].id == id && VisibleTo(st, caller, st.messages[i])
    ensures r.Fail? ==> r.error == MessageNotFound
    ensures r.Ok? ==> r.value in st.messages && r.value.id == id && VisibleTo(st, caller, r.value)
  {
    match FindFirst(st.messages, MessageWithId(st, caller, id))
    case None => Fail(MessageNotFound)
    case Some(k) => Ok(st.messages[k])
  }

  // ---------------------------------------------------------------------------
  // Listing and threads

  function Order(m: Message): int { m.messageOrder }

  function RoleMatches(c: Id, role: Option<string>): Message -> bool
  {
    (m: Message) => m.conversation == c && (role.None? || m.role == role.value)
  }

  /** The WHERE and ORDER BY of `list_messages`: the conversation's messages
      with the requested role (any role when none is given), by ascending order. */
  function ConversationMessages(st: Store, c: Id, role: Option<string>): (r: seq<Message>)
    ensures Ordering.Ascending(r, Order)
    ensures forall m :: m in r ==> m in st.messages && RoleMatches(c, role)(m)
    ensures forall m :: m in st.messages && RoleMatches(c, role)(m) ==> m in r
    ensures forall m :: m in st.messages ==> multiset(r)[m] == if RoleMatches(c, role)(m) then multiset(st.messages)[m] else 0
  {
    var matching := Filter(st.messages, RoleMatches(c, role));
    var sorted := Ordering.SortAsc(matching, Order);
    Ordering.MultisetSameMembers(matching, sorted);
    sorted
  }

  /** GET /ai/conversations/{id}/messages: 404 for someone else's
      conversation, otherwise one OFFSET/LIMIT page of `ConversationMessages`. */
  function ListMessages(st: Store, caller: Id, c: Id, role: Option<string>, skip: int, limit: int): (r: Result<seq<Message>>)
    ensures GetConversation(st, caller, c).Fail? ==> r == Fail(ConversationNotFound)
    ensures r.Fail? <==> GetConversation(st, caller, c).Fail? || skip < 0 || limit < 0
    ensures GetConversation(st, caller, c).Ok? && (skip < 0 || limit < 0) ==> r == Fail(DatabaseError)
    ensures r.Ok? ==> |r.value| == Min(limit, Max(0, |ConversationMessages(st, c, role)| - skip))
    ensures r.Ok? ==> forall i :: 0 <= i < |r.value| ==> r.value[i] == ConversationMessages(st, c, role)[skip + i]
    ensures r.Ok? ==> Ordering.Ascending(r.value, Order)
  {
    if GetConversation(st, caller, c).Fail? then Fail(ConversationNotFound)
    else Paginate(ConversationMessages(st, c, role), skip, limit)
  }

  function RepliesTo(root: Message): Message -> bool
  {
    (m: Message) => m.conversation == root.conversation && m.parent == Some(root.id)
  }

  /** GET /ai/messages/{id}/thread: the root message, then exactly its direct
      replies in the same conversation, by ascending order. */
  function MessageThread(st: Store, caller: Id, id: Id): (r: Result<seq<Message>>)
    ensures r.Fail? <==> GetMessage(st, caller, id).Fail?
    ensures r.Fail? ==> r.error == MessageNotFound
    ensures r.Ok? ==> |r.value| >= 1 && r.value[0] == GetMessage(st, caller, id).value
    ensures r.Ok? ==> Ordering.Ascending(r.value[1..], Order)
    ensures r.Ok? ==> var root := r.value[0];
              forall m :: m in r.value[1..] <==> m in st.messages && RepliesTo(root)(m)
    ensures r.Ok? ==> var root := r.value[0];
              forall m :: m in st.messages ==> multiset(r.value[1..])[m] == if RepliesTo(root)(m) then multiset(st.messages)[m] else 0
  {
    match GetMessage(st, caller, id)
    case Fail(e) => Fail(e)
    case Ok(root) =>
      var replies := Filter(st.messages, RepliesTo(root));
      var sorted := Ordering.SortAsc(replies, Order);
      Ordering.MultisetSameMembers(replies, sorted);
      assert ([root] + sorted)[1..] == sorted;
      Ok([root] + sorted)
  }

  /** A reply to a reply is not part of the thread: only direct replies are. */
  lemma GrandchildrenExcluded(st: Store, caller: Id, id: Id, child: Message, grandchild: Message)
    requires NoSelfParent(st.messages)
    requires MessageThread(st, caller, id).Ok?
    requires child in MessageThread(st, caller, id).value[1..]
    requires grandchild.parent == Some(child.id)
    ensures grandchild !in MessageThread(st, caller, id).value[1..]
  {
    var root := MessageThread(st, caller, id).value[0];
    assert child in st.messages && child.parent == Some(root.id);
    assert child.id != root.id;
  }

  // ---------------------------------------------------------------------------
  // Creating messages

  predicate OrderTaken(messages: seq<Message>, c: Id, order: int)
  {
    exists i :: 0 <= i < |messages| && messages[i].conversation == c && messages[i].messageOrder == order
  }

  /** POST /ai/conversations/{id}/messages: 404 for someone else's
      conversation; a taken `message_order` in the conversation or a parent
      that does not exist violates a constraint; otherwise the message is
      appended, the conversation counts one more message and records `now`
      as its last message time. */
  function CreateMessage(st: Store, caller: Id, c: Id, payload: MessageCreate, id: Id, now: int): (r: Result<MessageSaved>)
    requires !MessageIdUsed(st.messages, id)
    ensures GetConversation(st, caller, c).Fail? ==> r == Fail(ConversationNotFound)
    ensures r.Ok? <==> GetConversation(st, caller, c).Ok?
                       && !OrderTaken(st.messages, c, payload.messageOrder)
                       && (payload.parent.None? || MessageIdUsed(st.messages, payload.parent.value))
    ensures GetConversation(st, caller, c).Ok? && r.Fail? ==> r.error == DatabaseError
    ensures r.Ok? ==> var m := r.value.message;
              && m == Message(id, c, payload.parent, payload.role, payload.messageOrder, payload.body)
              && r.value.store.messages == st.messages + [m]
              && r.value.store.generated == st.generated && r.value.store.sessions == st.sessions
    ensures r.Ok? ==> var conv := st.conversations[c];
              r.value.store.conversations == st.conversations[c := conv.(totalMessages := conv.totalMessages + 1, lastMessageAt := Some(now))]
  {
    if GetConversation(st, caller, c).Fail? then Fail(ConversationNotFound)
    else if OrderTaken(st.messages, c, payload.messageOrder) then Fail(DatabaseError)
    else if payload.parent.Some? && !MessageIdUsed(st.messages, payload.parent.value) then Fail(DatabaseError)
    else
      var conv := st.conversations[c];
      var m := Message(id, c, payload.parent, payload.role, payload.messageOrder, payload.body);
      Ok(MessageSaved(
        st.(messages := st.messages + [m],
            conversations := st.conversations[c := conv.(totalMessages := conv.totalMessages + 1, lastMessageAt := Some(now))]),
        m))
  }

  /** Message creation keeps orders unique per conversation, every
      conversation's counter equal to its number of messages, and no message
      its own parent. */
  lemma CreateMessageKeepsInvariants(st: Store, caller: Id, c: Id, payload: MessageCreate, id: Id, now: int)
    requires !MessageIdUsed(st.messages, id)
    requires OrdersUnique(st.messages) && CountsAccurate(st) && NoSelfParent(st.messages)
    requires CreateMessage(st, caller, c, payload, id, now).Ok?
    ensures var st' := CreateMessage(st, caller, c, payload, id, now).value.store;
            OrdersUnique(st'.messages) && CountsAccurate(st') && NoSelfParent(st'.messages)
  {
    var saved := CreateMessage(st, caller, c, payload, id, now).value;
    var st', m := saved.store, saved.message;
    assert st'.messages == st.messages + [m];
    AppendKeepsOrdersUnique(st.messages, m);
    forall d | d in st'.conversations
      ensures st'.conversations[d].totalMessages == |Filter(st'.messages, InConversation(d))|
    {
      FilterAppend(st.messages, m, InConversation(d));
    }
    AppendKeepsNoSelfParent(st.messages, m);
  }

  /** A message whose order is free in its conversation keeps orders unique. */
  lemma AppendKeepsOrdersUnique(messages: seq<Message>, m: Message)
    requires OrdersUnique(messages) && !OrderTaken(messages, m.conversation, m.messageOrder)
    ensures OrdersUnique(messages + [m])
  {
    var s := messages + [m];
    forall i, j | 0 <= i < j < |s|
      ensures !(s[i].conversation == s[j].conversation && s[i].messageOrder == s[j].messageOrder)
    {
      if j == |messages| {
        assert s[i] == messages[i];
      }
    }
  }

  /** A message with a fresh id whose parent, if any, is stored is not its own parent. */
  lemma AppendKeepsNoSelfParent(messages: seq<Message>, m: Message)
    requires NoSelfParent(messages) && !MessageIdUsed(messages, m.id)
    requires m.parent.None? || MessageIdUsed(messages, m.parent.value)
    ensures NoSelfParent(messages + [m])
  {
    forall x | x in messages + [m] ensures x.parent != Some(x.id) {
      if x !in messages {
        assert x == m;
      }
    }
  }

  // ---------------------------------------------------------------------------
  // Generation placeholders

  const QUEUED := JStr("queued")

  /** POST /ai/generate/flashcards: only a queued placeholder of type
      "flashcards" recording the requested count (JSON null when absent). */
  function GenerateFlashcards(st: Store, caller: Id, payload: GenerateRequest, id: Id): (r: Store)
    ensures r == st.(generated := r.generated)
    ensures |r.generated| == |st.generated| + 1 && r.generated[..|st.generated|] == st.generated
    ensures var g := r.generated[|st.generated|];
            && g.id == id && g.owner == caller && g.contentType == "flashcards"
            && g.sourceType == payload.sourceType && g.sourceId == payload.sourceId
            && g.content.Keys == {"count", "status"} && g.content["status"] == QUEUED
            && (payload.count.None? ==> g.content["count"] == JNull)
            && (payload.count.Some? ==> g.content["count"] == JInt(payload.count.value))
  {
    var count := if payload.count.Some? then JInt(payload.count.value) else JNull;
    var g := Generated(id, caller, "flashcards", payload.sourceType, payload.sourceId, map["count" := count, "status" := QUEUED]);
    assert (st.generated + [g])[..|st.generated|] == st.generated;
    st.(generated := st.generated + [g])
  }

  /** POST /ai/generate/summary: only a queued placeholder of type "summary". */
  function GenerateSummary(st: Store, caller: Id, payload: GenerateRequest, id: Id): (r: Store)
    ensures r == st.(generated := r.generated)
    ensures |r.generated| == |st.generated| + 1 && r.generated[..|st.generated|] == st.generated
    ensures var g := r.generated[|st.generated|];
            && g.id == id && g.owner == caller && g.contentType == "summary"
            && g.sourceType == payload.sourceType && g.sourceId == payload.sourceId
            && g.content == map["status" := QUEUED]
  {
    var g := Generated(id, caller, "summary", payload.sourceType, payload.sourceId, map["status" := QUEUED]);
    assert (st.generated + [g])[..|st.generated|] == st.generated;
    st.(generated := st.generated + [g])
  }

  /** A generation record as the generate endpoints leave it: still queued,
      with a "count" entry exactly when flashcards were requested. */
  predicate Placeholder(g: Generated)
  {
    && "status" in g.content && g.content["status"] == QUEUED
    && ("count" in g.content <==> g.contentType == "flashcards")
    && (g.contentType == "flashcards" || g.contentType == "summary")
  }

  ghost predicate AllPlaceholders(generated: seq<Generated>)
  {
    forall i :: 0 <= i < |generated| ==> Placeholder(generated[i])
  }

  /** Both generate endpoints only ever add queued placeholders, and leave
      every conversation and message invariant as it was. */
  lemma GenerateKeepsInvariants(st: Store, caller: Id, payload: GenerateRequest, id: Id)
    requires AllPlaceholders(st.generated)
    ensures AllPlaceholders(GenerateFlashcards(st, caller, payload, id).generated)
    ensures AllPlaceholders(GenerateSummary(st, caller, payload, id).generated)
    ensures OrdersUnique(st.messages) ==> OrdersUnique(GenerateFlashcards(st, caller, payload, id).messages)
                                          && OrdersUnique(GenerateSummary(st, caller, payload, id).messages)
    ensures CountsAccurate(st) ==> CountsAccurate(GenerateFlashcards(st, caller, payload, id))
                                   && CountsAccurate(GenerateSummary(st, caller, payload, id))
    ensures NoSelfParent(st.messages) ==> NoSelfParent(GenerateFlashcards(st, caller, payload, id).messages)
                                          && NoSelfParent(GenerateSummary(st, caller, payload, id).messages)
  {
  }

  // ---------------------------------------------------------------------------
  // Chatbot sessions

  function SessionOf(token: string, caller: Id): ChatbotSession -> bool
  {
    (s: ChatbotSession) => s.token == token && s.owner == caller
  }

  /** DELETE /ai/sessions/{token}: 404 unless the caller owns a session with
      that token; otherwise exactly that session is removed. */
  function DeleteChatbotSession(st: Store, caller: Id, token: string): (r: Result<Store>)
    ensures r.Fail? <==> forall i :: 0 <= i < |st.sessions| ==> !(st.sessions[i].token == token && st.sessions[i].owner == caller)
    ensures r.Fail? ==> r.error == Error(NOT_FOUND, "Chatbot session not found")
    ensures r.Ok? ==> r.value == st.(sessions := r.value.sessions) && |r.value.sessions| == |st.sessions| - 1
    ensures r.Ok? ==> exists k :: 0 <= k < |st.sessions| && st.sessions[k].token == token && st.sessions[k].owner == caller
                        && r.value.sessions == st.sessions[..k] + st.sessions[k + 1..]
  {
    match FindFirst(st.sessions, SessionOf(token, caller))
    case None => Fail(Error(NOT_FOUND, "Chatbot session not found"))
    case Some(k) => Ok(st.(sessions := st.sessions[..k] + st.sessions[k + 1..]))
  }

  /** Deleting a session never removes another user's session. */
  lemma DeleteSessionSparesOthers(st: Store, caller: Id, token: string)
    requires DeleteChatbotSession(st, caller, token).Ok?
    ensures forall s :: s in st.sessions && s.owner != caller ==> s in DeleteChatbotSession(st, caller, token).value.sessions
  {
    var k := FindFirst(st.sessions, SessionOf(token, caller)).value;
    var rest := DeleteChatbotSession(st, caller, token).value.sessions;
    forall s | s in st.sessions && s.owner != caller ensures s in rest {
      var i :| 0 <= i < |st.sessions| && st.sessions[i] == s;
      assert i != k;
      if i < k { assert rest[i] == s; } else { assert rest[i - 1] == s; }
    }
  }
}

=== FILE: auth.dfy ===
/** The authentication router: registration, login with refresh-token
    issuance, refresh-token acceptance and logout. Password hashing and
    checking, token signing and decoding are abstract: a hash and a token
    string arrive as inputs, `verifyPassword` is a parameter, and a token's
    decoded payload arrives as a map (or `None` when decoding failed). Times
    are seconds on one clock. */
module Auth {
  import opened Common
  import opened Users

  const REFRESH_TOKEN_EXPIRE_DAYS := 7
  const SECONDS_PER_DAY := 86400

  /** How long an issued refresh record stays acceptable, in seconds. */
  const REFRESH_LIFETIME := REFRESH_TOKEN_EXPIRE_DAYS * SECONDS_PER_DAY

  /** One row of `refresh_tokens`. */
  datatype RefreshRecord = RefreshRecord(user: Id, token: string, expiresAt: int, revoked: bool)

  datatype Store = Store(users: seq<User>, refreshTokens: seq<RefreshRecord>)

  datatype UserCreate = UserCreate(
    email: string,
    username: string,
    fullName: Option<string>,
    timezone: Option<string>,
    studyGoalMinutesPerDay: Option<int>)

  /** A successful login: the new state and the user both tokens name. */
  datatype LoginResult = LoginResult(store: Store, subject: Id)

  const BadCredentials := Error(UNAUTHORIZED, "Incorrect email/username or password")
  const AccountDisabled := Error(UNAUTHORIZED, "User account is disabled")

  /** The unique constraint on `refresh_tokens.token`. */
  ghost predicate TokensUnique(records: seq<RefreshRecord>)
  {
    forall i, j :: 0 <= i < j < |records| ==> records[i].token != records[j].token
  }

  ghost predicate Valid(st: Store)
  {
    Unique(st.users) && TokensUnique(st.refreshTokens)
  }

  // ---------------------------------------------------------------------------
  // Registration

  /** POST /auth/register: 409 for a taken email, then 409 for a taken
      username; otherwise an active, unverified user is appended. */
  function Register(st: Store, payload: UserCreate, hashed: string, id: Id): (r: Result<Store>)
    requires !IdTaken(st.users, id)
    ensures EmailTaken(st.users, payload.email) ==> r == Fail(Error(CONFLICT, "Email already registered"))
    ensures !EmailTaken(st.users, payload.email) && UsernameTaken(st.users, payload.username) ==>
              r == Fail(Error(CONFLICT, "Username already taken"))
    ensures r.Ok? <==> !EmailTaken(st.users, payload.email) && !UsernameTaken(st.users, payload.username)
    ensures r.Ok? ==> r.value.refreshTokens == st.refreshTokens
    ensures r.Ok? ==> |r.value.users| == |st.users| + 1 && r.value.users[..|st.users|] == st.users
    ensures r.Ok? ==> var u := r.value.users[|st.users|];
              u.id == id && u.email == payload.email && u.username == payload.username
              && u.hashedPassword == hashed && u.isActive && !u.isVerified
              && u.fullName == payload.fullName && u.timezone == payload.timezone
              && u.studyGoalMinutesPerDay == payload.studyGoalMinutesPerDay
  {
    if EmailTaken(st.users, payload.email) then Fail(Error(CONFLICT, "Email already registered"))
    else if UsernameTaken(st.users, payload.username) then Fail(Error(CONFLICT, "Username already taken"))
    else
      var u := User(id, payload.email, payload.username, hashed, payload.fullName, payload.timezone,
                    payload.studyGoalMinutesPerDay, true, false);
      Ok(st.(users := st.users + [u]))
  }

  /** Registration keeps ids, emails and usernames unique. */
  lemma RegisterKeepsValid(st: Store, payload: UserCreate, hashed: string, id: Id)
    requires Valid(st) && !IdTaken(st.users, id)
    requires Register(st, payload, hashed, id).Ok?
    ensures Valid(Register(st, payload, hashed, id).value)
  {
    var users' := Register(st, payload, hashed, id).value.users;
    assert users' == st.users + [users'[|st.users|]];
  }

  // ---------------------------------------------------------------------------
  // Login

  /** The login form's identifier is tried as an email first, then as a username. */
  function LookupLogin(users: seq<User>, identifier: string): (r: Option<User>)
    ensures EmailTaken(users, identifier) ==> r.Some? && r.value.email == identifier
    ensures !EmailTaken(users, identifier) && UsernameTaken(users, identifier) ==> r.Some? && r.value.username == identifier
    ensures r.None? <==> !EmailTaken(users, identifier) && !UsernameTaken(users, identifier)
    ensures r.Some? ==> r.value in users
  {
    match FindFirst(users, HasEmail(identifier))
    case Some(k) => Some(users[k])
    case None =>
      match FindFirst(users, HasUsername(identifier))
      case Some(k) => Some(users[k])
      case None => None
  }

  predicate TokenIssued(records: seq<RefreshRecord>, token: string)
  {
    exists i :: 0 <= i < |records| && records[i].token == token
  }

  /** POST /auth/login: 401 for an unknown identifier or a wrong password,
      then 401 for an inactive account; otherwise a non-revoked refresh
      record for the user, expiring seven days from `now`, is stored. A token
      string already stored violates the column's unique constraint. */
  function Login(st: Store, identifier: string, password: string, verifyPassword: (string, string) -> bool,
                 token: string, now: int): (r: Result<LoginResult>)
    ensures LookupLogin(st.users, identifier).None? ==> r == Fail(BadCredentials)
    ensures r.Ok? <==> LookupLogin(st.users, identifier).Some?
                       && verifyPassword(password, LookupLogin(st.users, identifier).value.hashedPassword)
                       && LookupLogin(st.users, identifier).value.isActive
                       && !TokenIssued(st.refreshTokens, token)
    ensures r.Fail? && r.error == AccountDisabled ==>
              verifyPassword(password, LookupLogin(st.users, identifier).value.hashedPassword)
    ensures LookupLogin(st.users, identifier).Some?
            && !verifyPassword(password, LookupLogin(st.users, identifier).value.hashedPassword) ==>
              r == Fail(BadCredentials)
    ensures LookupLogin(st.users, identifier).Some?
            && verifyPassword(password, LookupLogin(st.users, identifier).value.hashedPassword)
            && !LookupLogin(st.users, identifier).value.isActive ==>
              r == Fail(AccountDisabled)
    ensures LookupLogin(st.users, identifier).Some?
            && verifyPassword(password, LookupLogin(st.users, identifier).value.hashedPassword)
            && LookupLogin(st.users, identifier).value.isActive
            && TokenIssued(st.refreshTokens, token) ==>
              r == Fail(DatabaseError)
    ensures r.Ok? ==> var u := LookupLogin(st.users, identifier).value;
              && r.value.subject == u.id
              && r.value.store == st.(refreshTokens := st.refreshTokens + [RefreshRecord(u.id, token, now + REFRESH_LIFETIME, false)])
  {
    match LookupLogin(st.users, identifier)
    case None => Fail(BadCredentials)
    case Some(u) =>
      if !verifyPassword(password, u.hashedPassword) then Fail(BadCredentials)
      else if !u.isActive then Fail(AccountDisabled)
      else if TokenIssued(st.refreshTokens, token) then Fail(DatabaseError)
      else
        var rec := RefreshRecord(u.id, token, now + REFRESH_LIFETIME, false);
        Ok(LoginResult(st.(refreshTokens := st.refreshTokens + [rec]), u.id))
  }

  /** A wrong password is reported exactly like an unknown user, and the
      account's state is only revealed after the password matches. */
  lemma WrongPasswordHidesAccountState(st: Store, identifier: string, password: string,
                                       verifyPassword: (string, string) -> bool, token: string, now: int)
    requires LookupLogin(st.users, identifier).Some?
    requires !verifyPassword(password, LookupLogin(st.users, identifier).value.hashedPassword)
    ensures Login(st, identifier, password, verifyPassword, token, now) == Fail(BadCredentials)
  {
  }

  lemma LoginKeepsValid(st: Store, identifier: string, password: string, verifyPassword: (string, string) -> bool,
                        token: string, now: int)
    requires Valid(st)
    requires Login(st, identifier, password, verifyPassword, token, now).Ok?
    ensures Valid(Login(st, identifier, password, verifyPassword, token, now).value.store)
  {
    var recs := Login(st, identifier, password, verifyPassword, token, now).value.store.refreshTokens;
    assert recs == st.refreshTokens + [recs[|st.refreshTokens|]];
  }

  // ---------------------------------------------------------------------------
  // Refresh

  function Live(token: string): RefreshRecord -> bool
  {
    (rec: RefreshRecord) => rec.token == token && !rec.revoked
  }

  /** POST /auth/refresh: in order, 401 for an undecodable token, a type
      other than "refresh", no unrevoked record of the token, and a record
      that expired before `now`; otherwise a new access token for the
      record's user (not the payload's subject). */
  function Refresh(st: Store, token: string, decoded: Option<map<string, Json>>, now: int): (r: Result<Id>)
    ensures decoded.None? ==> r == Fail(Error(UNAUTHORIZED, "Invalid refresh token"))
    ensures decoded.Some? && Get(decoded.value, "type") != Some(JStr("refresh")) ==>
              r == Fail(Error(UNAUTHORIZED, "Invalid token type"))
    ensures r.Ok? <==> decoded.Some? && Get(decoded.value, "type") == Some(JStr("refresh"))
                       && FindFirst(st.refreshTokens, Live(token)).Some?
                       && now <= st.refreshTokens[FindFirst(st.refreshTokens, Live(token)).value].expiresAt
    ensures r.Ok? ==> exists i :: 0 <= i < |st.refreshTokens| && st.refreshTokens[i].token == token
                        && !st.refreshTokens[i].revoked && now <= st.refreshTokens[i].expiresAt
                        && st.refreshTokens[i].user == r.value
    ensures decoded.Some? && Get(decoded.value, "type") == Some(JStr("refresh"))
            && (forall i :: 0 <= i < |st.refreshTokens| ==> !Live(token)(st.refreshTokens[i])) ==>
              r == Fail(Error(UNAUTHORIZED, "Refresh token not found or revoked"))
  {
    if decoded.None? then Fail(Error(UNAUTHORIZED, "Invalid refresh token"))
    else if Get(decoded.value, "type") != Some(JStr("refresh")) then Fail(Error(UNAUTHORIZED, "Invalid token type"))
    else
      match FindFirst(st.refreshTokens, Live(token))
      case None => Fail(Error(UNAUTHORIZED, "Refresh token not found or revoked"))
      case Some(k) =>
        var rec := st.refreshTokens[k];
        if rec.expiresAt < now then Fail(Error(UNAUTHORIZED, "Refresh token has expired"))
        else Ok(rec.user)
  }

  /** The record a successful login stores is accepted up to and including
      its expiry instant, for the user who logged in, and refused after it. */
  lemma LoginThenRefresh(st: Store, identifier: string, password: string, verifyPassword: (string, string) -> bool,
                         token: string, now: int, decoded: map<string, Json>, later: int)
    requires Valid(st)
    requires Login(st, identifier, password, verifyPassword, token, now).Ok?
    requires Get(decoded, "type") == Some(JStr("refresh"))
    ensures var res := Login(st, identifier, password, verifyPassword, token, now).value;
            Refresh(res.store, token, Some(decoded), later)
            == if later <= now + REFRESH_LIFETIME then Ok(res.subject)
               else Fail(Error(UNAUTHORIZED, "Refresh token has expired"))
  {
    var res := Login(st, identifier, password, verifyPassword, token, now).value;
    var recs := res.store.refreshTokens;
    var n := |st.refreshTokens|;
    forall i | 0 <= i < n ensures !Live(token)(recs[i]) {
      assert recs[i] == st.refreshTokens[i];
    }
    assert Live(token)(recs[n]);
    assert FindFirst(recs, Live(token)) == Some(n);
  }

  // ---------------------------------------------------------------------------
  // Logout

  function Owned(token: string, caller: Id): RefreshRecord -> bool
  {
    (rec: RefreshRecord) => rec.token == token && rec.user == caller
  }

  /** POST /auth/logout: the caller's record of the token, if any, is
      revoked; the call succeeds either way and touches nothing else. */
  function Logout(st: Store, caller: Id, token: string): (r: Store)
    ensures r.users == st.users
    ensures |r.refreshTokens| == |st.refreshTokens|
    ensures forall i :: 0 <= i < |st.refreshTokens| ==>
              r.refreshTokens[i] == if Owned(token, caller)(st.refreshTokens[i]) && FindFirst(st.refreshTokens, Owned(token, caller)) == Some(i)
                                    then st.refreshTokens[i].(revoked := true) else st.refreshTokens[i]
    ensures (forall i :: 0 <= i < |st.refreshTokens| ==> !Owned(token, caller)(st.refreshTokens[i])) ==> r == st
  {
    match FindFirst(st.refreshTokens, Owned(token, caller))
    case None => st
    case Some(k) => st.(refreshTokens := st.refreshTokens[k := st.refreshTokens[k].(revoked := true)])
  }

  /** Logging out twice is the same as logging out once. */
  lemma LogoutIdempotent(st: Store, caller: Id, token: string)
    ensures Logout(Logout(st, caller, token), caller, token) == Logout(st, caller, token)
  {
    var once := Logout(st, caller, token);
    match FindFirst(st.refreshTokens, Owned(token, caller))
    case None =>
    case Some(k) =>
      forall i | 0 <= i < k ensures !Owned(token, caller)(once.refreshTokens[i]) {
        assert once.refreshTokens[i] == st.refreshTokens[i];
      }
      assert FindFirst(once.refreshTokens, Owned(token, caller)) == Some(k);
  }

  lemma LogoutKeepsValid(st: Store, caller: Id, token: string)
    requires Valid(st)
    ensures Valid(Logout(st, caller, token))
  {
  }

  /** Once its owner logs out, a token is refused by every later refresh. */
  lemma LogoutThenRefreshFails(st: Store, caller: Id, token: string, decoded: map<string, Json>, now: int)
    requires Valid(st)
    requires exists i :: 0 <= i < |st.refreshTokens| && Owned(token, caller)(st.refreshTokens[i])
    requires Get(decoded, "type") == Some(JStr("refresh"))
    ensures Refresh(Logout(st, caller, token), token, Some(decoded), now)
            == Fail(Error(UNAUTHORIZED, "Refresh token not found or revoked"))
  {
    var after := Logout(st, caller, token);
    var k := FindFirst(st.refreshTokens, Owned(token, caller)).value;
    forall i | 0 <= i < |after.refreshTokens| ensures !Live(token)(after.refreshTokens[i]) {
      if i != k {
        assert after.refreshTokens[i] == st.refreshTokens[i];
        assert st.refreshTokens[i].token != st.refreshTokens[k].token;
      }
    }
  }
}

=== FILE: common.dfy ===
/** Shared vocabulary of the backend model: identifiers, the HTTP error a
    handler raises, JSON values carried by token payloads and JSONB columns,
    and the row-filtering and OFFSET/LIMIT pagination every listing uses. */
module Common {

  /** Primary keys (UUIDs in the database) are opaque naturals here. */
  type Id = nat

  datatype Option<+T> = None | Some(value: T)

  /** An `HTTPException` (or an unhandled database error) surfaced to the client. */
  datatype Error = Error(status: nat, detail: string)

  /** Every handler either produces a value or raises an error; on an error
      nothing is committed. */
  datatype Result<+T> = Ok(value: T) | Fail(error: Error)

  const BAD_REQUEST: nat := 400
  const UNAUTHORIZED: nat := 401
  const FORBIDDEN: nat := 403
  const NOT_FOUND: nat := 404
  const CONFLICT: nat := 409
  const SERVER_ERROR: nat := 500

  /** What the client sees when the database rejects a statement (a unique
      or foreign-key constraint, a negative OFFSET or LIMIT). */
  const DatabaseError := Error(SERVER_ERROR, "Internal Server Error")

  /** A decoded JSON value, as found in a JWT payload or a JSONB column. */
  datatype Json = JNull | JBool(b: bool) | JInt(i: int) | JStr(s: string) | JOther

  /** Python's `dict.get(key)`: a missing key and an explicit JSON null both read as None. */
  function Get(payload: map<string, Json>, key: string): (r: Option<Json>)
    ensures r.None? <==> key !in payload || payload[key] == JNull
    ensures r.Some? ==> r.value == payload[key]
  {
    if key in payload && payload[key] != JNull then Some(payload[key]) else None
  }

  function Min(a: int, b: int): int { if a <= b then a else b }
  function Max(a: int, b: int): int { if a <= b then b else a }

  /** A WHERE clause: the rows satisfying `p`, in storage order. */
  function Filter<T>(s: seq<T>, p: T -> bool): (r: seq<T>)
    ensures |r| <= |s|
    ensures forall x :: x in r ==> p(x)
    ensures forall x :: x in r ==> x in s
    ensures forall x :: x in s && p(x) ==> x in r
    ensures forall x :: x in s ==> multiset(r)[x] == if p(x) then multiset(s)[x] else 0
  {
    if |s| == 0 then []
    else
      assert s == [s[0]] + s[1..];
      var rest := Filter(s[1..], p);
      if p(s[0]) then [s[0]] + rest else rest
  }

  /** Appending a row extends the filtered view by that row exactly when it matches. */
  lemma {:induction false} FilterAppend<T>(s: seq<T>, x: T, p: T -> bool)
    ensures Filter(s + [x], p) == Filter(s, p) + (if p(x) then [x] else [])
  {
    if |s| == 0 {
      assert s + [x] == [x];
      assert [x][1..] == [];
    } else {
      assert (s + [x])[0] == s[0];
      assert (s + [x])[1..] == s[1..] + [x];
      FilterAppend(s[1..], x, p);
    }
  }

  /** Filtering distributes over concatenation. */
  lemma {:induction false} FilterConcat<T>(a: seq<T>, b: seq<T>, p: T -> bool)
    ensures Filter(a + b, p) == Filter(a, p) + Filter(b, p)
  {
    if |a| == 0 {
      assert a + b == b;
    } else {
      assert (a + b)[0] == a[0];
      assert (a + b)[1..] == a[1..] + b;
      FilterConcat(a[1..], b, p);
    }
  }

  /** A WHERE clause every row satisfies keeps the whole table. */
  lemma {:induction false} FilterKeepsAll<T>(s: seq<T>, p: T -> bool)
    requires forall i :: 0 <= i < |s| ==> p(s[i])
    ensures Filter(s, p) == s
  {
    if |s| > 0 {
      FilterKeepsAll(s[1..], p);
    }
  }

  /** `scalar_one_or_none` over a WHERE clause that matches at most one row:
      the position of the first row satisfying `p`. */
  function FindFirst<T>(s: seq<T>, p: T -> bool): (r: Option<nat>)
    ensures r.Some? ==> r.value < |s| && p(s[r.value])
    ensures r.Some? ==> forall k :: 0 <= k < r.value ==> !p(s[k])
    ensures r.None? <==> forall k :: 0 <= k < |s| ==> !p(s[k])
  {
    if |s| == 0 then None
    else if p(s[0]) then Some(0)
    else
      match FindFirst(s[1..], p)
      case None =>
        assert forall k :: 1 <= k < |s| ==> s[k] == s[1..][k - 1];
        None
      case Some(k) => Some(k + 1)
  }

  /** `.offset(skip).limit(limit)`: PostgreSQL rejects a negative OFFSET or
      LIMIT; otherwise the rows from position `skip` on, at most `limit` of them. */
  function Paginate<T>(rows: seq<T>, skip: int, limit: int): (r: Result<seq<T>>)
    ensures r.Fail? <==> skip < 0 || limit < 0
    ensures r.Fail? ==> r.error == DatabaseError
    ensures r.Ok? ==> |r.value| == Min(limit, Max(0, |rows| - skip))
    ensures r.Ok? ==> forall i :: 0 <= i < |r.value| ==> r.value[i] == rows[skip + i]
  {
    if skip < 0 || limit < 0 then Fail(DatabaseError)
    else if skip >= |rows| then Ok([])
    else Ok(rows[skip..Min(|rows|, skip + limit)])
  }

  /** Two consecutive pages read together are the page that spans both. */
  lemma PagesTile<T>(rows: seq<T>, skip: nat, a: nat, b: nat)
    ensures Paginate(rows, skip, a).Ok? && Paginate(rows, skip + a, b).Ok?
    ensures Paginate(rows, skip, a).value + Paginate(rows, skip + a, b).value
            == Paginate(rows, skip, a + b).value
  {
    var p, q, w := Paginate(rows, skip, a).value, Paginate(rows, skip + a, b).value, Paginate(rows, skip, a + b).value;
    assert |p + q| == |w|;
    forall i | 0 <= i < |w|
      ensures (p + q)[i] == w[i]
    {
      if i < |p| {
        assert (p + q)[i] == p[i];
      } else {
        assert (p + q)[i] == q[i - |p|];
      }
    }
  }

  /** A page is empty exactly when it starts at or past the end, or has no room. */
  lemma PageEmptyIff<T>(rows: seq<T>, skip: nat, limit: nat)
    ensures Paginate(rows, skip, limit).Ok?
    ensures Paginate(rows, skip, limit).value == [] <==> skip >= |rows| || limit == 0
  {
    var p := Paginate(rows, skip, limit).value;
    if skip < |rows| && limit > 0 {
      assert |p| > 0;
    }
  }
}

=== FILE: dependencies.dfy ===
/** `get_current_user`: the validation cascade applied to a bearer token's
    decoded payload before any authenticated handler runs. JWT signature and
    expiry checking are abstract: the payload arrives decoded, or `None` when
    decoding failed. */
module Dependencies {
  import opened Common
  import opened Users

  const CredentialsError := Error(UNAUTHORIZED, "Could not validate credentials")
  const DisabledError := Error(UNAUTHORIZED, "User account is disabled")

  /** The claims the login handler signs into an access token for user `id`,
      where `show` renders a UUID as text. */
  function AccessClaims(show: Id -> string, id: Id): map<string, Json>
  {
    map["sub" := JStr(show(id)), "type" := JStr("access")]
  }

  function RefreshClaims(show: Id -> string, id: Id): map<string, Json>
  {
    map["sub" := JStr(show(id)), "type" := JStr("refresh")]
  }

  /** The subject a payload names, when it names one as text and is an access token. */
  predicate WellFormedAccess(payload: map<string, Json>)
  {
    Get(payload, "sub").Some? && Get(payload, "sub").value.JStr?
    && Get(payload, "type") == Some(JStr("access"))
  }

  /** In order: an undecodable token, a missing "sub", a type other than
      "access", a subject that is not UUID text, or an unknown user is a 401
      "Could not validate credentials"; an inactive user is a 401
      "User account is disabled"; otherwise the user whose id the subject names. */
  function GetCurrentUser(users: seq<User>, decoded: Option<map<string, Json>>, parseUuid: string -> Option<Id>): (r: Result<User>)
    ensures decoded.None? ==> r == Fail(CredentialsError)
    ensures decoded.Some? && !WellFormedAccess(decoded.value) ==> r == Fail(CredentialsError)
    ensures r.Ok? <==> decoded.Some? && WellFormedAccess(decoded.value)
                       && parseUuid(decoded.value["sub"].s).Some?
                       && IdTaken(users, parseUuid(decoded.value["sub"].s).value)
                       && ById(users, parseUuid(decoded.value["sub"].s).value).value.isActive
    ensures r.Ok? ==> r.value in users && r.value.isActive
                      && Some(r.value.id) == parseUuid(decoded.value["sub"].s)
    ensures r.Fail? ==> r.error == CredentialsError || r.error == DisabledError
    ensures r == Fail(DisabledError) <==> decoded.Some? && WellFormedAccess(decoded.value)
                                          && parseUuid(decoded.value["sub"].s).Some?
                                          && IdTaken(users, parseUuid(decoded.value["sub"].s).value)
                                          && !ById(users, parseUuid(decoded.value["sub"].s).value).value.isActive
  {
    if decoded.None? then Fail(CredentialsError)
    else
      var payload := decoded.value;
      var subject := Get(payload, "sub");
      if subject.None? || Get(payload, "type") != Some(JStr("access")) then Fail(CredentialsError)
      else if !subject.value.JStr? then Fail(CredentialsError)
      else
        match parseUuid(subject.value.s)
        case None => Fail(CredentialsError)
        case Some(id) =>
          match ById(users, id)
          case None => Fail(CredentialsError)
          case Some(user) => if !user.isActive then Fail(DisabledError) else Ok(user)
  }

  /** Tokens of type "refresh" never authenticate a request, whoever they name. */
  lemma RefreshTokensRejected(users: seq<User>, show: Id -> string, id: Id, parseUuid: string -> Option<Id>)
    ensures GetCurrentUser(users, Some(RefreshClaims(show, id)), parseUuid) == Fail(CredentialsError)
  {
    assert Get(RefreshClaims(show, id), "type") == Some(JStr("refresh"));
  }

  /** The claims login issues authenticate their active user, given that
      UUID text parses back to the id it renders. */
  lemma AccessClaimsAuthenticate(users: seq<User>, show: Id -> string, parseUuid: string -> Option<Id>, k: nat)
    requires Unique(users) && k < |users| && users[k].isActive
    requires parseUuid(show(users[k].id)) == Some(users[k].id)
    ensures GetCurrentUser(users, Some(AccessClaims(show, users[k].id)), parseUuid) == Ok(users[k])
  {
    var claims := AccessClaims(show, users[k].id);
    assert Get(claims, "sub") == Some(JStr(show(users[k].id)));
    assert Get(claims, "type") == Some(JStr("access"));
    ByIdExact(users, k);
  }
}

=== FILE: flashcards.dfy ===
/** The flashcards router: due-card selection, the deck's card counter, review
    counters and tag attachment. There is no spaced-repetition computation in
    the router: a review copies the caller's ease/interval snapshot verbatim. */
module Flashcards {
  import opened Common
  import Ordering
  import Tags

  /** `Numeric` columns (ease factor) are carried as opaque decimal text. */
  datatype Decimal = Decimal(text: string)

  /** The card text fields; opaque to every decision here. */
  datatype CardContent = CardContent(
    front: string,
    back: string,
    frontType: Option<string>,
    backType: Option<string>,
    hint: Option<string>,
    explanation: Option<string>,
    difficultyRating: Option<int>)

  datatype Card = Card(
    id: Id,
    deck: Id,
    content: CardContent,
    easeFactor: Option<Decimal>,
    intervalDays: int,
    repetitions: int,
    nextReviewDate: Option<int>,
    totalReviews: int,
    correctReviews: int,
    isSuspended: bool,
    tags: seq<Id>)

  datatype Deck = Deck(id: Id, owner: Id, title: string, totalCards: int, masteredCards: int)

  /** One row of `flashcard_reviews`, written once per review. */
  datatype Review = Review(
    id: Id,
    card: Id,
    user: Id,
    session: Option<Id>,
    qualityRating: Option<int>,
    responseTimeSeconds: Option<int>,
    previousEaseFactor: Option<Decimal>,
    newEaseFactor: Option<Decimal>,
    previousInterval: Option<int>,
    newInterval: Option<int>,
    reviewedAt: int)

  /** The body of POST /flashcards/{id}/review (its `flashcard_id` and
      `user_id` fields are ignored by the handler). */
  datatype ReviewPayload = ReviewPayload(
    session: Option<Id>,
    qualityRating: Option<int>,
    responseTimeSeconds: Option<int>,
    previousEaseFactor: Option<Decimal>,
    newEaseFactor: Option<Decimal>,
    previousInterval: Option<int>,
    newInterval: Option<int>)

  /** Cards are kept in storage order, which is the order of an unordered
      SELECT. `sessions` holds the ids of the stored study sessions, the
      target of a review's `session_id` foreign key. */
  datatype Store = Store(decks: map<Id, Deck>, cards: seq<Card>, reviews: seq<Review>, tags: map<Id, Tags.Tag>, sessions: set<Id>)

  datatype ReviewSaved = ReviewSaved(store: Store, review: Review)

  /** A rating of at least this counts as a correct answer. */
  const PASS_THRESHOLD := 3

  // ---------------------------------------------------------------------------
  // Store invariants

  ghost predicate CardIdsUnique(cards: seq<Card>)
  {
    forall i, j :: 0 <= i < j < |cards| ==> cards[i].id != cards[j].id
  }

  function InDeck(d: Id): Card -> bool
  {
    (c: Card) => c.deck == d
  }

  /** How many stored cards belong to deck `d`. */
  function CardsInDeck(cards: seq<Card>, d: Id): nat
  {
    |Filter(cards, InDeck(d))|
  }

  /** Every deck's `total_cards` equals the number of its cards. */
  ghost predicate CountsAccurate(st: Store)
  {
    forall d :: d in st.decks ==> st.decks[d].totalCards == CardsInDeck(st.cards, d)
  }

  ghost predicate ReviewCountsConsistent(cards: seq<Card>)
  {
    forall i :: 0 <= i < |cards| ==> 0 <= cards[i].correctReviews <= cards[i].totalReviews
  }

  ghost predicate Valid(st: Store)
  {
    && CardIdsUnique(st.cards)
    && (forall i :: 0 <= i < |st.cards| ==> st.cards[i].deck in st.decks)
    && (forall d :: d in st.decks ==> st.decks[d].id == d)
    && (forall i :: 0 <= i < |st.cards| ==> Tags.NoDuplicates(st.cards[i].tags))
    && (forall i :: 0 <= i < |st.reviews| ==> CardIdUsed(st.cards, st.reviews[i].card))
    && (forall i :: 0 <= i < |st.reviews| ==> SessionExists(st.sessions, st.reviews[i].session))
  }

  /** A review's optional `session_id` names a stored study session. */
  predicate SessionExists(sessions: set<Id>, session: Option<Id>)
  {
    session.Some? ==> session.value in sessions
  }

  // ---------------------------------------------------------------------------
  // Lookups

  predicate OwnsCard(st: Store, caller: Id, c: Card)
  {
    c.deck in st.decks && st.decks[c.deck].owner == caller
  }

  /** `_get_card_owned_by_user`: the card with this id whose deck is the caller's. */
  function FindOwnedCard(st: Store, caller: Id, cardId: Id): (r: Option<nat>)
    ensures r.Some? ==> r.value < |st.cards| && st.cards[r.value].id == cardId && OwnsCard(st, caller, st.cards[r.value])
    ensures r.None? <==> forall i :: 0 <= i < |st.cards| ==> !(st.cards[i].id == cardId && OwnsCard(st, caller, st.cards[i]))
  {
    FindFrom(st, caller, cardId, 0)
  }

  function FindFrom(st: Store, caller: Id, cardId: Id, i: nat): (r: Option<nat>)
    requires i <= |st.cards|
    ensures r.Some? ==> i <= r.value < |st.cards| && st.cards[r.value].id == cardId && OwnsCard(st, caller, st.cards[r.value])
    ensures r.None? <==> forall k :: i <= k < |st.cards| ==> !(st.cards[k].id == cardId && OwnsCard(st, caller, st.cards[k]))
    decreases |st.cards| - i
  {
    if i == |st.cards| then None
    else if st.cards[i].id == cardId && OwnsCard(st, caller, st.cards[i]) then Some(i)
    else FindFrom(st, caller, cardId, i + 1)
  }

  const CardNotFound := Error(NOT_FOUND, "Flashcard not found")

  // ---------------------------------------------------------------------------
  // Due cards

  /** A card is due when it is not suspended and has no review date or one
      that has passed. */
  predicate IsDue(c: Card, now: int)
  {
    !c.isSuspended && (c.nextReviewDate.None? || c.nextReviewDate.value <= now)
  }

  function DueFor(st: Store, caller: Id, now: int): Card -> bool
  {
    (c: Card) => OwnsCard(st, caller, c) && IsDue(c, now)
  }

  /** The WHERE clause of `list_due_cards`, before OFFSET/LIMIT. */
  function DueCards(st: Store, caller: Id, now: int): (r: seq<Card>)
    ensures forall c :: c in r ==> c in st.cards && OwnsCard(st, caller, c) && IsDue(c, now)
    ensures forall c :: c in st.cards && OwnsCard(st, caller, c) && IsDue(c, now) ==> c in r
  {
    Filter(st.cards, DueFor(st, caller, now))
  }

  /** GET /flashcards/due. */
  function ListDueCards(st: Store, caller: Id, now: int, skip: int, limit: int): (r: Result<seq<Card>>)
    ensures r.Fail? <==> skip < 0 || limit < 0
    ensures r.Fail? ==> r.error == DatabaseError
    ensures r.Ok? ==> |r.value| <= limit
    ensures r.Ok? ==> forall c :: c in r.value ==> c in st.cards && OwnsCard(st, caller, c) && IsDue(c, now)
    ensures r.Ok? && skip >= |DueCards(st, caller, now)| ==> r.value == []
    ensures r.Ok? ==> |r.value| == Min(limit, Max(0, |DueCards(st, caller, now)| - skip))
    ensures r.Ok? ==> forall i :: 0 <= i < |r.value| ==> r.value[i] == DueCards(st, caller, now)[skip + i]
  {
    var due := DueCards(st, caller, now);
    var r := Paginate(due, skip, limit);
    if r.Ok? then
      assert forall c :: c in r.value ==> c in due by {
        forall c | c in r.value ensures c in due {
          var k :| 0 <= k < |r.value| && r.value[k] == c;
          assert due[skip + k] == c;
        }
      }
      r
    else r
  }

  /** A card with no review date is due whenever it is not suspended, and a
      suspended card is never due. */
  lemma DueEdgeCases(c: Card, now: int)
    ensures c.nextReviewDate.None? ==> (IsDue(c, now) <==> !c.isSuspended)
    ensures c.isSuspended ==> !IsDue(c, now)
  {
  }

  // ---------------------------------------------------------------------------
  // The deck's card counter

  /** `deck.total_cards = (deck.total_cards or 0) + 1` (the column is NOT NULL). */
  function CountAfterCreate(total: int): int
  {
    total + 1
  }

  /** `if deck.total_cards > 0: deck.total_cards -= 1`. */
  function CountAfterDelete(total: int): int
  {
    if total > 0 then total - 1 else total
  }

  /** `m` successive deletes. */
  function CountAfterDeletes(total: int, m: nat): int
  {
    if m == 0 then total else CountAfterDeletes(CountAfterDelete(total), m - 1)
  }

  /** From a non-negative counter, `m` deletes floor at zero and never go negative. */
  lemma {:induction false} DeletesFloorAtZero(total: int, m: nat)
    requires total >= 0
    ensures CountAfterDeletes(total, m) == Max(0, total - m)
  {
    if m > 0 {
      DeletesFloorAtZero(CountAfterDelete(total), m - 1);
    }
  }

  /** `n` creates on a fresh deck, then `m` deletes, leave `max(0, n - m)`. */
  lemma CreatesThenDeletes(n: nat, m: nat)
    ensures CountAfterDeletes(n, m) == Max(0, n - m)
  {
    DeletesFloorAtZero(n, m);
  }

  /** The column defaults of a new card (ease factor NULL, interval and
      repetitions 0, no review date, counters 0, not suspended, no tags). */
  function NewCard(id: Id, deck: Id, content: CardContent): (c: Card)
    ensures c.id == id && c.deck == deck && c.content == content
    ensures c.totalReviews == 0 && c.correctReviews == 0
    ensures c.intervalDays == 0 && c.repetitions == 0 && c.easeFactor.None?
    ensures c.tags == [] && !c.isSuspended
    ensures forall now: int :: IsDue(c, now)
  {
    Card(id, deck, content, None, 0, 0, None, 0, 0, false, [])
  }

  predicate CardIdUsed(cards: seq<Card>, id: Id)
  {
    exists i :: 0 <= i < |cards| && cards[i].id == id
  }

  /** POST /flashcards: 404 unless the deck exists and is the caller's;
      otherwise the new card is stored and the deck counter grows by one. */
  function CreateFlashcard(st: Store, caller: Id, deckId: Id, content: CardContent, id: Id): (r: Result<Store>)
    requires !CardIdUsed(st.cards, id)
    ensures r.Fail? <==> !(deckId in st.decks && st.decks[deckId].owner == caller)
    ensures r.Fail? ==> r.error == Error(NOT_FOUND, "Flashcard deck not found")
    ensures r.Ok? ==> r.value.cards == st.cards + [NewCard(id, deckId, content)]
    ensures r.Ok? ==> r.value.decks == st.decks[deckId := st.decks[deckId].(totalCards := st.decks[deckId].totalCards + 1)]
    ensures r.Ok? ==> r.value.reviews == st.reviews && r.value.tags == st.tags && r.value.sessions == st.sessions
  {
    if !(deckId in st.decks && st.decks[deckId].owner == caller) then
      Fail(Error(NOT_FOUND, "Flashcard deck not found"))
    else
      var deck := st.decks[deckId];
      Ok(st.(cards := st.cards + [NewCard(id, deckId, content)],
             decks := st.decks[deckId := deck.(totalCards := CountAfterCreate(deck.totalCards))]))
  }

  function RemoveAt(cards: seq<Card>, k: nat): (r: seq<Card>)
    requires k < |cards|
    ensures |r| == |cards| - 1
    ensures forall i :: 0 <= i < k ==> r[i] == cards[i]
    ensures forall i :: k <= i < |r| ==> r[i] == cards[i + 1]
  {
    cards[..k] + cards[k + 1..]
  }

  /** Some stored review refers to card `cardId`. */
  predicate Reviewed(reviews: seq<Review>, cardId: Id)
  {
    exists i :: 0 <= i < |reviews| && reviews[i].card == cardId
  }

  /** DELETE /flashcards/{id}: 404 unless the card is in one of the caller's
      decks. The `reviews` relationship has no delete cascade, so deleting a
      reviewed card makes the ORM null the NOT NULL `flashcard_id` of its
      reviews and the commit fails. Otherwise the card is removed and its
      deck's counter drops by one unless it is already zero or below. */
  function DeleteFlashcard(st: Store, caller: Id, cardId: Id): (r: Result<Store>)
    ensures r == Fail(CardNotFound) <==> FindOwnedCard(st, caller, cardId).None?
    ensures FindOwnedCard(st, caller, cardId).Some? && Reviewed(st.reviews, cardId) ==> r == Fail(DatabaseError)
    ensures r.Ok? <==> FindOwnedCard(st, caller, cardId).Some? && !Reviewed(st.reviews, cardId)
    ensures r.Ok? ==> var k := FindOwnedCard(st, caller, cardId).value;
              var d := st.cards[k].deck;
              && r.value.cards == RemoveAt(st.cards, k)
              && r.value.decks == st.decks[d := st.decks[d].(totalCards := CountAfterDelete(st.decks[d].totalCards))]
              && (st.decks[d].totalCards >= 0 ==> r.value.decks[d].totalCards >= 0)
              && r.value.reviews == st.reviews && r.value.tags == st.tags && r.value.sessions == st.sessions
  {
    match FindOwnedCard(st, caller, cardId)
    case None => Fail(CardNotFound)
    case Some(k) =>
      if Reviewed(st.reviews, cardId) then Fail(DatabaseError)
      else
        var d := st.cards[k].deck;
        var deck := st.decks[d];
        Ok(st.(cards := RemoveAt(st.cards, k),
               decks := st.decks[d := deck.(totalCards := CountAfterDelete(deck.totalCards))]))
  }

  lemma CountAppend(cards: seq<Card>, card: Card, d: Id)
    ensures CardsInDeck(cards + [card], d) == CardsInDeck(cards, d) + (if card.deck == d then 1 else 0)
  {
    FilterAppend(cards, card, InDeck(d));
  }

  lemma CountRemove(cards: seq<Card>, k: nat, d: Id)
    requires k < |cards|
    ensures CardsInDeck(cards, d) == CardsInDeck(RemoveAt(cards, k), d) + (if cards[k].deck == d then 1 else 0)
  {
    var card := cards[k];
    assert cards == cards[..k] + [card] + cards[k + 1..];
    FilterConcat(cards[..k] + [card], cards[k + 1..], InDeck(d));
    FilterConcat(cards[..k], [card], InDeck(d));
    FilterConcat(cards[..k], cards[k + 1..], InDeck(d));
    assert Filter([card], InDeck(d)) == (if d == card.deck then [card] else []) by {
      assert [card][1..] == [];
    }
  }

  /** Card creation keeps the store well formed. */
  lemma CreateKeepsValid(st: Store, caller: Id, deckId: Id, content: CardContent, id: Id)
    requires !CardIdUsed(st.cards, id)
    requires Valid(st)
    requires CreateFlashcard(st, caller, deckId, content, id).Ok?
    ensures Valid(CreateFlashcard(st, caller, deckId, content, id).value)
  {
    var st' := CreateFlashcard(st, caller, deckId, content, id).value;
    var c := NewCard(id, deckId, content);
    assert st'.cards == st.cards + [c];
    forall i | 0 <= i < |st'.reviews| ensures CardIdUsed(st'.cards, st'.reviews[i].card) {
      var j :| 0 <= j < |st.cards| && st.cards[j].id == st.reviews[i].card;
      assert st'.cards[j] == st.cards[j];
    }
  }

  /** Card creation keeps every deck's counter equal to its number of cards. */
  lemma CreateKeepsCounts(st: Store, caller: Id, deckId: Id, content: CardContent, id: Id)
    requires !CardIdUsed(st.cards, id)
    requires CountsAccurate(st)
    requires CreateFlashcard(st, caller, deckId, content, id).Ok?
    ensures CountsAccurate(CreateFlashcard(st, caller, deckId, content, id).value)
  {
    var st' := CreateFlashcard(st, caller, deckId, content, id).value;
    var c := NewCard(id, deckId, content);
    forall d | d in st'.decks ensures st'.decks[d].totalCards == CardsInDeck(st'.cards, d) {
      CountAppend(st.cards, c, d);
    }
  }

  /** Under an accurate counter the clamp never fires: the deck of a card being
      deleted has a positive count. */
  lemma DeleteCountPositive(st: Store, caller: Id, cardId: Id)
    requires CountsAccurate(st)
    requires DeleteFlashcard(st, caller, cardId).Ok?
    ensures var k := FindOwnedCard(st, caller, cardId).value;
            st.decks[st.cards[k].deck].totalCards > 0
  {
    var k := FindOwnedCard(st, caller, cardId).value;
    CountRemove(st.cards, k, st.cards[k].deck);
  }

  /** Card deletion keeps every deck's counter equal to its number of cards. */
  lemma DeleteKeepsCounts(st: Store, caller: Id, cardId: Id)
    requires CountsAccurate(st)
    requires DeleteFlashcard(st, caller, cardId).Ok?
    ensures CountsAccurate(DeleteFlashcard(st, caller, cardId).value)
  {
    var k := FindOwnedCard(st, caller, cardId).value;
    var st' := DeleteFlashcard(st, caller, cardId).value;
    DeleteCountPositive(st, caller, cardId);
    forall d | d in st'.decks ensures st'.decks[d].totalCards == CardsInDeck(st'.cards, d) {
      CountRemove(st.cards, k, d);
    }
  }

  /** Card deletion keeps the store well formed, and the id is gone. */
  lemma DeleteKeepsValid(st: Store, caller: Id, cardId: Id)
    requires Valid(st)
    requires DeleteFlashcard(st, caller, cardId).Ok?
    ensures Valid(DeleteFlashcard(st, caller, cardId).value)
    ensures !CardIdUsed(DeleteFlashcard(st, caller, cardId).value.cards, cardId)
  {
    var k := FindOwnedCard(st, caller, cardId).value;
    var st' := DeleteFlashcard(st, caller, cardId).value;
    assert st'.cards == RemoveAt(st.cards, k);
    forall i | 0 <= i < |st'.cards| ensures st'.cards[i].id != cardId {
      if i >= k { assert st'.cards[i] == st.cards[i + 1]; }
    }
    forall i | 0 <= i < |st'.reviews| ensures CardIdUsed(st'.cards, st'.reviews[i].card) {
      var j :| 0 <= j < |st.cards| && st.cards[j].id == st.reviews[i].card;
      assert j != k;
      if j < k { assert st'.cards[j] == st.cards[j]; }
      else { assert st'.cards[j - 1] == st.cards[j]; }
    }
  }

  // ---------------------------------------------------------------------------
  // Reviews

  /** The counter update of `create_review`: one more review, and one more
      correct review exactly when a rating of at least 3 was given. */
  function CountReview(c: Card, quality: Option<int>): (r: Card)
    ensures r.totalReviews == c.totalReviews + 1
    ensures r.correctReviews == c.correctReviews + (if quality.Some? && quality.value >= PASS_THRESHOLD then 1 else 0)
    ensures r == c.(totalReviews := r.totalReviews, correctReviews := r.correctReviews)
    ensures 0 <= c.correctReviews <= c.totalReviews ==> 0 <= r.correctReviews <= r.totalReviews
  {
    var counted := c.(totalReviews := c.totalReviews + 1);
    if quality.Some? && quality.value >= PASS_THRESHOLD then counted.(correctReviews := c.correctReviews + 1)
    else counted
  }

  /** POST /flashcards/{id}/review: 404 unless the card is the caller's; a
      `session_id` naming no study session violates its foreign key and the
      commit fails; otherwise one review record is appended, copying the
      submitted snapshot verbatim, and only the card's two counters change. */
  function CreateReview(st: Store, caller: Id, cardId: Id, payload: ReviewPayload, reviewId: Id, now: int): (r: Result<ReviewSaved>)
    ensures r == Fail(CardNotFound) <==> FindOwnedCard(st, caller, cardId).None?
    ensures FindOwnedCard(st, caller, cardId).Some? && !SessionExists(st.sessions, payload.session) ==> r == Fail(DatabaseError)
    ensures r.Ok? <==> FindOwnedCard(st, caller, cardId).Some? && SessionExists(st.sessions, payload.session)
    ensures r.Ok? ==> var k := FindOwnedCard(st, caller, cardId).value;
              && r.value.store.reviews == st.reviews + [r.value.review]
              && r.value.store.decks == st.decks && r.value.store.tags == st.tags
              && r.value.store.sessions == st.sessions
              && |r.value.store.cards| == |st.cards|
              && (forall i :: 0 <= i < |st.cards| && i != k ==> r.value.store.cards[i] == st.cards[i])
              && r.value.store.cards[k] == CountReview(st.cards[k], payload.qualityRating)
    ensures r.Ok? ==> var rv := r.value.review;
              && rv.id == reviewId && rv.card == cardId && rv.user == caller && rv.reviewedAt == now
              && rv.qualityRating == payload.qualityRating && rv.session == payload.session
              && rv.responseTimeSeconds == payload.responseTimeSeconds
              && rv.previousEaseFactor == payload.previousEaseFactor && rv.newEaseFactor == payload.newEaseFactor
              && rv.previousInterval == payload.previousInterval && rv.newInterval == payload.newInterval
    ensures r.Ok? && ReviewCountsConsistent(st.cards) ==> ReviewCountsConsistent(r.value.store.cards)
    ensures r.Ok? && Valid(st) ==> Valid(r.value.store)
    ensures r.Ok? && CountsAccurate(st) ==> CountsAccurate(r.value.store)
  {
    match FindOwnedCard(st, caller, cardId)
    case None => Fail(CardNotFound)
    case Some(k) =>
      if !SessionExists(st.sessions, payload.session) then Fail(DatabaseError)
      else
        var card := st.cards[k];
        var review := Review(reviewId, card.id, caller, payload.session, payload.qualityRating,
                             payload.responseTimeSeconds, payload.previousEaseFactor, payload.newEaseFactor,
                             payload.previousInterval, payload.newInterval, now);
        var cards' := st.cards[k := CountReview(card, payload.qualityRating)];
        assert forall d :: CardsInDeck(cards', d) == CardsInDeck(st.cards, d) by {
          forall d ensures CardsInDeck(cards', d) == CardsInDeck(st.cards, d) {
            SameDecksSameFilter(st.cards, cards', d);
          }
        }
        Ok(ReviewSaved(st.(cards := cards', reviews := st.reviews + [review]), review))
  }

  lemma {:induction false} SameDecksSameFilter(a: seq<Card>, b: seq<Card>, d: Id)
    requires |a| == |b|
    requires forall i :: 0 <= i < |a| ==> a[i].deck == b[i].deck
    ensures |Filter(a, InDeck(d))| == |Filter(b, InDeck(d))|
  {
    if |a| > 0 {
      SameDecksSameFilter(a[1..], b[1..], d);
    }
  }

  /** A review leaves the card's scheduling state untouched: ease factor,
      interval, repetitions and next review date are never recomputed. */
  lemma ReviewKeepsSchedule(st: Store, caller: Id, cardId: Id, payload: ReviewPayload, reviewId: Id, now: int)
    requires CreateReview(st, caller, cardId, payload, reviewId, now).Ok?
    ensures var k := FindOwnedCard(st, caller, cardId).value;
            var c, c' := st.cards[k], CreateReview(st, caller, cardId, payload, reviewId, now).value.store.cards[k];
            c'.easeFactor == c.easeFactor && c'.intervalDays == c.intervalDays
            && c'.repetitions == c.repetitions && c'.nextReviewDate == c.nextReviewDate
  {
  }

  /** Once a card has been reviewed it can no longer be deleted: the delete
      fails on the reviews' NOT NULL foreign key. */
  lemma ReviewThenDeleteFails(st: Store, caller: Id, cardId: Id, payload: ReviewPayload, reviewId: Id, now: int)
    requires CreateReview(st, caller, cardId, payload, reviewId, now).Ok?
    ensures DeleteFlashcard(CreateReview(st, caller, cardId, payload, reviewId, now).value.store, caller, cardId)
            == Fail(DatabaseError)
  {
    var k := FindOwnedCard(st, caller, cardId).value;
    var st' := CreateReview(st, caller, cardId, payload, reviewId, now).value.store;
    assert st'.cards[k].id == cardId && OwnsCard(st', caller, st'.cards[k]);
    assert st'.reviews[|st.reviews|].card == cardId;
  }

  /** GET /flashcards/{id}/reviews: the caller's reviews of the card, newest first. */
  function ListReviews(st: Store, caller: Id, cardId: Id): (r: Result<seq<Review>>)
    ensures r.Fail? <==> FindOwnedCard(st, caller, cardId).None?
    ensures r.Fail? ==> r.error == CardNotFound
    ensures r.Ok? ==> Ordering.Descending(r.value, (rv: Review) => rv.reviewedAt)
    ensures r.Ok? ==> forall rv :: rv in r.value <==> rv in st.reviews && rv.card == cardId && rv.user == caller
    ensures r.Ok? ==> forall rv :: rv in st.reviews ==>
              multiset(r.value)[rv] == if rv.card == cardId && rv.user == caller then multiset(st.reviews)[rv] else 0
  {
    if FindOwnedCard(st, caller, cardId).None? then Fail(CardNotFound)
    else
      var mine := Filter(st.reviews, (rv: Review) => rv.card == cardId && rv.user == caller);
      var sorted := Ordering.SortDesc(mine, (rv: Review) => rv.reviewedAt);
      Ordering.MultisetSameMembers(mine, sorted);
      Ok(sorted)
  }

  // ---------------------------------------------------------------------------
  // Tags

  /** POST /flashcards/{id}/tags: 404 unless the card is the caller's;
      otherwise the caller's existing requested tags that are not attached
      yet are appended, and nothing else changes. */
  function AddTagsToFlashcard(st: Store, caller: Id, cardId: Id, tagIds: seq<Id>): (r: Result<Store>)
    ensures r.Fail? <==> FindOwnedCard(st, caller, cardId).None?
    ensures r.Fail? ==> r.error == CardNotFound
    ensures r.Ok? ==> var k := FindOwnedCard(st, caller, cardId).value;
              && |r.value.cards| == |st.cards|
              && r.value.cards[k] == st.cards[k].(tags := r.value.cards[k].tags)
              && (forall i :: 0 <= i < |st.cards| && i != k ==> r.value.cards[i] == st.cards[i])
              && r.value.decks == st.decks && r.value.reviews == st.reviews && r.value.tags == st.tags && r.value.sessions == st.sessions
              && |st.cards[k].tags| <= |r.value.cards[k].tags|
              && st.cards[k].tags == r.value.cards[k].tags[..|st.cards[k].tags|]
              && (forall t :: t in r.value.cards[k].tags ==> t in st.cards[k].tags || (t in tagIds && Tags.Attachable(st.tags, caller, t)))
              && (forall t :: t in tagIds && Tags.Attachable(st.tags, caller, t) ==> t in r.value.cards[k].tags)
    ensures r.Ok? && Valid(st) ==> Valid(r.value)
    ensures r.Ok? && CountsAccurate(st) ==> CountsAccurate(r.value)
  {
    match FindOwnedCard(st, caller, cardId)
    case None => Fail(CardNotFound)
    case Some(k) =>
      var card := st.cards[k];
      var cards' := st.cards[k := card.(tags := Tags.AttachTags(card.tags, tagIds, st.tags, caller))];
      assert forall d :: CardsInDeck(cards', d) == CardsInDeck(st.cards, d) by {
        forall d ensures CardsInDeck(cards', d) == CardsInDeck(st.cards, d) {
          SameDecksSameFilter(st.cards, cards', d);
        }
      }
      Ok(st.(cards := cards'))
  }
}

=== FILE: jobs.dfy ===
/** The jobs router: a document's processing status, and the reprocess
    request that resets a document to "pending" for the background pipeline. */
module Jobs {
  import opened Common

  datatype Document = Document(
    id: Id,
    owner: Id,
    subject: Option<Id>,
    title: string,
    fileName: string,
    filePath: string,
    fileType: Option<string>,
    fileSizeBytes: Option<int>,
    processingStatus: string,
    extractedText: Option<string>,
    pageCount: Option<int>,
    summary: Option<string>,
    topics: Option<Json>,
    uploadedAt: int,
    processedAt: Option<int>)

  /** The body of GET /jobs/documents/{id}/status. */
  datatype StatusView = StatusView(document: Id, processingStatus: string, processedAt: Option<int>)

  /** The body of POST /jobs/documents/{id}/reprocess. */
  datatype ReprocessReply = ReprocessReply(detail: string, document: Id, processingStatus: string)

  datatype Reprocessed = Reprocessed(documents: map<Id, Document>, reply: ReprocessReply)

  const PENDING := "pending"
  const DocumentNotFound := Error(NOT_FOUND, "Document not found")
  const REPROCESS_QUEUED := "Document reprocessing queued"

  predicate OwnedBy(documents: map<Id, Document>, caller: Id, id: Id)
  {
    id in documents && documents[id].owner == caller
  }

  /** The columns of a document that reprocessing leaves alone. */
  predicate SameUpload(a: Document, b: Document)
  {
    && a.id == b.id && a.owner == b.owner && a.subject == b.subject && a.title == b.title
    && a.fileName == b.fileName && a.filePath == b.filePath && a.fileType == b.fileType
    && a.fileSizeBytes == b.fileSizeBytes && a.pageCount == b.pageCount && a.uploadedAt == b.uploadedAt
  }

  /** The field reset of `reprocess_document`. */
  function Reset(d: Document): (r: Document)
    ensures r.processingStatus == PENDING
    ensures r.processedAt.None? && r.extractedText.None? && r.summary.None? && r.topics.None?
    ensures SameUpload(r, d)
  {
    d.(processingStatus := PENDING, processedAt := None, extractedText := None, summary := None, topics := None)
  }

  /** A reset is determined by the untouched columns alone. */
  lemma ResetDeterminedByUpload(a: Document, b: Document)
    requires SameUpload(a, b)
    ensures Reset(a) == Reset(b)
  {
  }

  /** GET /jobs/documents/{id}/status: 404 unless the document is the caller's. */
  function GetProcessingStatus(documents: map<Id, Document>, caller: Id, id: Id): (r: Result<StatusView>)
    ensures r.Fail? <==> !OwnedBy(documents, caller, id)
    ensures r.Fail? ==> r.error == DocumentNotFound
    ensures r.Ok? ==> r.value.document == id && r.value.processingStatus == documents[id].processingStatus
                      && r.value.processedAt == documents[id].processedAt
  {
    if !OwnedBy(documents, caller, id) then Fail(DocumentNotFound)
    else Ok(StatusView(id, documents[id].processingStatus, documents[id].processedAt))
  }

  /** POST /jobs/documents/{id}/reprocess: 404 unless the document is the
      caller's; otherwise that document is reset and no other changes. */
  function ReprocessDocument(documents: map<Id, Document>, caller: Id, id: Id): (r: Result<Reprocessed>)
    ensures r.Fail? <==> !OwnedBy(documents, caller, id)
    ensures r.Fail? ==> r.error == DocumentNotFound
    ensures r.Ok? ==> r.value.documents.Keys == documents.Keys
    ensures r.Ok? ==> forall k :: k in documents && k != id ==> r.value.documents[k] == documents[k]
    ensures r.Ok? ==> var d := r.value.documents[id];
              d.processingStatus == PENDING && d.processedAt.None? && d.extractedText.None?
              && d.summary.None? && d.topics.None? && SameUpload(d, documents[id])
    ensures r.Ok? ==> r.value.reply.detail == REPROCESS_QUEUED && r.value.reply.document == id
    ensures r.Ok? ==> r.value.reply.processingStatus == r.value.documents[id].processingStatus
  {
    if !OwnedBy(documents, caller, id) then Fail(DocumentNotFound)
    else
      var d := Reset(documents[id]);
      Ok(Reprocessed(documents[id := d], ReprocessReply(REPROCESS_QUEUED, id, d.processingStatus)))
  }

  /** Reprocessing twice leaves the same documents as reprocessing once. */
  lemma ReprocessIdempotent(documents: map<Id, Document>, caller: Id, id: Id)
    requires ReprocessDocument(documents, caller, id).Ok?
    ensures var once := ReprocessDocument(documents, caller, id).value.documents;
            ReprocessDocument(once, caller, id).Ok?
            && ReprocessDocument(once, caller, id).value.documents == once
  {
    var once := ReprocessDocument(documents, caller, id).value.documents;
    assert once[id] == Reset(documents[id]);
    assert Reset(once[id]) == once[id];
    assert once[id := Reset(once[id])] == once;
  }

  /** After a reprocess the status endpoint reports "pending" and no processing time. */
  lemma ReprocessThenStatus(documents: map<Id, Document>, caller: Id, id: Id)
    requires ReprocessDocument(documents, caller, id).Ok?
    ensures GetProcessingStatus(ReprocessDocument(documents, caller, id).value.documents, caller, id)
            == Ok(StatusView(id, PENDING, None))
  {
  }
}

=== FILE: notes.dfy ===
/** The notes router: owner-scoped lookup, the filtered and ordered listing,
    and tag attachment and removal on a note. */
module Notes {
  import opened Common
  import Ordering
  import Tags

  datatype Note = Note(
    id: Id,
    owner: Id,
    subject: Option<Id>,
    title: string,
    content: Option<string>,
    isPinned: bool,
    isArchived: bool,
    updatedAt: int,
    tags: seq<Id>)

  datatype Store = Store(notes: seq<Note>, tags: map<Id, Tags.Tag>)

  /** The optional query parameters of GET /notes; `None` applies no condition. */
  datatype NoteFilter = NoteFilter(subject: Option<Id>, isArchived: Option<bool>, isPinned: Option<bool>)

  const NoteNotFound := Error(NOT_FOUND, "Note not found")

  /** Attached tags are distinct rows of `tags`. */
  ghost predicate Valid(st: Store)
  {
    forall i :: 0 <= i < |st.notes| ==>
      Tags.NoDuplicates(st.notes[i].tags) && forall t :: t in st.notes[i].tags ==> t in st.tags
  }

  /** The lookup `Note.id == note_id AND Note.user_id == caller`. */
  function FindNote(notes: seq<Note>, caller: Id, id: Id): (r: Option<nat>)
    ensures r.Some? ==> r.value < |notes| && notes[r.value].id == id && notes[r.value].owner == caller
    ensures r.Some? ==> forall k :: 0 <= k < r.value ==> !(notes[k].id == id && notes[k].owner == caller)
    ensures r.None? <==> forall k :: 0 <= k < |notes| ==> !(notes[k].id == id && notes[k].owner == caller)
  {
    FindFrom(notes, caller, id, 0)
  }

  function FindFrom(notes: seq<Note>, caller: Id, id: Id, i: nat): (r: Option<nat>)
    requires i <= |notes|
    ensures r.Some? ==> i <= r.value < |notes| && notes[r.value].id == id && notes[r.value].owner == caller
    ensures r.Some? ==> forall k :: i <= k < r.value ==> !(notes[k].id == id && notes[k].owner == caller)
    ensures r.None? <==> forall k :: i <= k < |notes| ==> !(notes[k].id == id && notes[k].owner == caller)
    decreases |notes| - i
  {
    if i == |notes| then None
    else if notes[i].id == id && notes[i].owner == caller then Some(i)
    else FindFrom(notes, caller, id, i + 1)
  }

  /** GET /notes/{id}: the caller's note, or 404 for a note that is missing or someone else's. */
  function GetNote(st: Store, caller: Id, id: Id): (r: Result<Note>)
    ensures r.Fail? <==> forall k :: 0 <= k < |st.notes| ==> !(st.notes[k].id == id && st.notes[k].owner == caller)
    ensures r.Fail? ==> r.error == NoteNotFound
    ensures r.Ok? ==> r.value in st.notes && r.value.id == id && r.value.owner == caller
  {
    match FindNote(st.notes, caller, id)
    case None => Fail(NoteNotFound)
    case Some(k) => Ok(st.notes[k])
  }

  // ---------------------------------------------------------------------------
  // Listing

  predicate Matches(n: Note, caller: Id, f: NoteFilter)
  {
    && n.owner == caller
    && (f.subject.None? || n.subject == f.subject)
    && (f.isArchived.None? || n.isArchived == f.isArchived.value)
    && (f.isPinned.None? || n.isPinned == f.isPinned.value)
  }

  function MatchesFor(caller: Id, f: NoteFilter): Note -> bool
  {
    (n: Note) => Matches(n, caller, f)
  }

  function UpdatedAt(n: Note): int { n.updatedAt }

  /** The WHERE and ORDER BY of `list_notes`: the caller's notes passing every
      supplied filter, most recently updated first. */
  function MatchingNotes(st: Store, caller: Id, f: NoteFilter): (r: seq<Note>)
    ensures Ordering.Descending(r, UpdatedAt)
    ensures forall n :: n in r ==> n in st.notes && Matches(n, caller, f)
    ensures forall n :: n in st.notes && Matches(n, caller, f) ==> n in r
    ensures forall n :: n in st.notes ==> multiset(r)[n] == if Matches(n, caller, f) then multiset(st.notes)[n] else 0
  {
    var matching := Filter(st.notes, MatchesFor(caller, f));
    var sorted := Ordering.SortDesc(matching, UpdatedAt);
    Ordering.MultisetSameMembers(matching, sorted);
    sorted
  }

  /** GET /notes: one OFFSET/LIMIT page of `MatchingNotes`. */
  function ListNotes(st: Store, caller: Id, f: NoteFilter, skip: int, limit: int): (r: Result<seq<Note>>)
    ensures r.Fail? <==> skip < 0 || limit < 0
    ensures r.Fail? ==> r.error == DatabaseError
    ensures r.Ok? ==> |r.value| == Min(limit, Max(0, |MatchingNotes(st, caller, f)| - skip))
    ensures r.Ok? ==> forall i :: 0 <= i < |r.value| ==> r.value[i] == MatchingNotes(st, caller, f)[skip + i]
    ensures r.Ok? ==> Ordering.Descending(r.value, UpdatedAt)
    ensures r.Ok? ==> forall n :: n in r.value ==> n in st.notes && Matches(n, caller, f)
  {
    var all := MatchingNotes(st, caller, f);
    var r := Paginate(all, skip, limit);
    if r.Ok? then
      assert forall n :: n in r.value ==> n in all by {
        forall n | n in r.value ensures n in all {
          var k :| 0 <= k < |r.value| && r.value[k] == n;
          assert all[skip + k] == n;
        }
      }
      r
    else r
  }

  /** With no filter supplied, the listing covers every note of the caller and only those. */
  lemma NoFilterListsAllOwn(st: Store, caller: Id)
    ensures forall n :: n in MatchingNotes(st, caller, NoteFilter(None, None, None)) <==> n in st.notes && n.owner == caller
  {
  }

  // ---------------------------------------------------------------------------
  // Tags on a note

  /** POST /notes/{id}/tags: 404 unless the note is the caller's; otherwise
      the caller's existing requested tags not attached yet are appended to
      it, and nothing else changes. */
  function AddTagsToNote(st: Store, caller: Id, noteId: Id, tagIds: seq<Id>): (r: Result<Store>)
    ensures r.Fail? <==> FindNote(st.notes, caller, noteId).None?
    ensures r.Fail? ==> r.error == NoteNotFound
    ensures r.Ok? ==> |r.value.notes| == |st.notes|
    ensures r.Ok? ==> var k := FindNote(st.notes, caller, noteId).value;
              var before, after := st.notes[k].tags, r.value.notes[k].tags;
              && r.value.tags == st.tags
              && (forall i :: 0 <= i < |st.notes| && i != k ==> r.value.notes[i] == st.notes[i])
              && r.value.notes[k] == st.notes[k].(tags := after)
              && |before| <= |after| && after[..|before|] == before
              && (forall t :: t in after ==> t in before || (t in tagIds && Tags.Attachable(st.tags, caller, t)))
              && (forall t :: t in tagIds && Tags.Attachable(st.tags, caller, t) ==> t in after)
  {
    match FindNote(st.notes, caller, noteId)
    case None => Fail(NoteNotFound)
    case Some(k) =>
      var n := st.notes[k];
      Ok(st.(notes := st.notes[k := n.(tags := Tags.AttachTags(n.tags, tagIds, st.tags, caller))]))
  }

  /** DELETE /notes/{id}/tags/{tag}: 404 unless the note is the caller's;
      otherwise an existing tag (of any owner) is dropped from the note if
      attached, and the note is unchanged if not. */
  function RemoveTagFromNote(st: Store, caller: Id, noteId: Id, tagId: Id): (r: Result<Store>)
    ensures r.Fail? <==> FindNote(st.notes, caller, noteId).None?
    ensures r.Fail? ==> r.error == NoteNotFound
    ensures r.Ok? ==> |r.value.notes| == |st.notes|
    ensures r.Ok? ==> var k := FindNote(st.notes, caller, noteId).value;
              var before, after := st.notes[k].tags, r.value.notes[k].tags;
              && r.value.tags == st.tags
              && (forall i :: 0 <= i < |st.notes| && i != k ==> r.value.notes[i] == st.notes[i])
              && r.value.notes[k] == st.notes[k].(tags := after)
              && (tagId !in st.tags || tagId !in before ==> after == before)
              && (forall u :: u in after ==> u in before)
              && (forall u :: u in before && u != tagId ==> u in after)
              && (tagId in st.tags && Tags.NoDuplicates(before) ==> tagId !in after)
  {
    match FindNote(st.notes, caller, noteId)
    case None => Fail(NoteNotFound)
    case Some(k) =>
      var n := st.notes[k];
      if tagId in st.tags && tagId in n.tags then
        Ok(st.(notes := st.notes[k := n.(tags := Tags.Detach(n.tags, tagId))]))
      else Ok(st)
  }

  lemma AddTagsKeepsValid(st: Store, caller: Id, noteId: Id, tagIds: seq<Id>)
    requires Valid(st)
    requires AddTagsToNote(st, caller, noteId, tagIds).Ok?
    ensures Valid(AddTagsToNote(st, caller, noteId, tagIds).value)
  {
  }

  lemma RemoveTagKeepsValid(st: Store, caller: Id, noteId: Id, tagId: Id)
    requires Valid(st)
    requires RemoveTagFromNote(st, caller, noteId, tagId).Ok?
    ensures Valid(RemoveTagFromNote(st, caller, noteId, tagId).value)
  {
  }

  /** Attaching one tag to a note and removing it again leaves it detached
      and every other tag of the note as it was. */
  lemma AddThenRemoveTag(st: Store, caller: Id, noteId: Id, t: Id)
    requires Valid(st)
    requires FindNote(st.notes, caller, noteId).Some?
    ensures AddTagsToNote(st, caller, noteId, [t]).Ok?
    ensures var st1 := AddTagsToNote(st, caller, noteId, [t]).value;
            var k := FindNote(st.notes, caller, noteId).value;
            && RemoveTagFromNote(st1, caller, noteId, t).Ok?
            && var st2 := RemoveTagFromNote(st1, caller, noteId, t).value;
            && t !in st2.notes[k].tags
            && forall u :: u != t ==> (u in st2.notes[k].tags <==> u in st.notes[k].tags)
  {
    var k := FindNote(st.notes, caller, noteId).value;
    var st1 := AddTagsToNote(st, caller, noteId, [t]).value;
    assert st1.notes[k].id == noteId && st1.notes[k].owner == caller;
    forall i | 0 <= i < k ensures !(st1.notes[i].id == noteId && st1.notes[i].owner == caller) {
      assert st1.notes[i] == st.notes[i];
    }
    FindUnique(st1.notes, caller, noteId, k);
    Tags.AttachThenDetach(st.notes[k].tags, t, st.tags, caller);
  }

  /** The lookup finds the first matching note. */
  lemma FindUnique(notes: seq<Note>, caller: Id, id: Id, k: nat)
    requires k < |notes| && notes[k].id == id && notes[k].owner == caller
    requires forall i :: 0 <= i < k ==> !(notes[i].id == id && notes[i].owner == caller)
    ensures FindNote(notes, caller, id) == Some(k)
  {
    FindFromFirst(notes, caller, id, 0, k);
  }

  lemma {:induction false} FindFromFirst(notes: seq<Note>, caller: Id, id: Id, i: nat, k: nat)
    requires i <= k < |notes| && notes[k].id == id && notes[k].owner == caller
    requires forall j :: i <= j < k ==> !(notes[j].id == id && notes[j].owner == caller)
    ensures FindFrom(notes, caller, id, i) == Some(k)
    decreases k - i
  {
    if i < k {
      FindFromFirst(notes, caller, id, i + 1, k);
    }
  }
}

=== FILE: ordering.dfy ===
/** ORDER BY on an integer column: a functional insertion sort keyed by an
    integer, with sortedness and permutation proved. The database leaves the
    order of equal keys unspecified; the model fixes one such order. */
module Ordering {

  predicate Ascending<T>(s: seq<T>, key: T -> int)
  {
    forall i, j :: 0 <= i < j < |s| ==> key(s[i]) <= key(s[j])
  }

  predicate Descending<T>(s: seq<T>, key: T -> int)
  {
    forall i, j :: 0 <= i < j < |s| ==> key(s[i]) >= key(s[j])
  }

  function Insert<T>(x: T, s: seq<T>, key: T -> int): (r: seq<T>)
    requires Ascending(s, key)
    ensures |r| == |s| + 1
    ensures forall y :: y in r ==> y in s || y == x
    ensures Ascending(r, key)
    ensures multiset(r) == multiset(s) + multiset{x}
  {
    if |s| == 0 then [x]
    else if key(x) <= key(s[0]) then [x] + s
    else
      assert s == [s[0]] + s[1..];
      var rest := Insert(x, s[1..], key);
      assert forall j :: 0 <= j < |rest| ==> key(s[0]) <= key(rest[j]) by {
        forall j | 0 <= j < |rest| ensures key(s[0]) <= key(rest[j]) {
          assert rest[j] in rest;
        }
      }
      [s[0]] + rest
  }

  /** ORDER BY key ASC. */
  function SortAsc<T>(s: seq<T>, key: T -> int): (r: seq<T>)
    ensures Ascending(r, key)
    ensures multiset(r) == multiset(s)
    ensures |r| == |s|
  {
    if |s| == 0 then []
    else
      assert s == [s[0]] + s[1..];
      Insert(s[0], SortAsc(s[1..], key), key)
  }

  /** ORDER BY key DESC: ascending on the negated key. */
  function SortDesc<T>(s: seq<T>, key: T -> int): (r: seq<T>)
    ensures Descending(r, key)
    ensures multiset(r) == multiset(s)
    ensures |r| == |s|
  {
    var r := SortAsc(s, x => -key(x));
    assert forall i, j :: 0 <= i < j < |r| ==> -key(r[i]) <= -key(r[j]);
    r
  }

  lemma MultisetSameMembers<T>(a: seq<T>, b: seq<T>)
    requires multiset(a) == multiset(b)
    ensures forall x :: x in a <==> x in b
  {
    forall x ensures x in a <==> x in b {
      assert x in a <==> x in multiset(a);
      assert x in b <==> x in multiset(b);
    }
  }
}

=== FILE: progress.dfy ===
/** Daily progress records and the study-streak walk of the progress router.
    Calendar dates are integer day numbers; "today" is a parameter. */
module Progress {
  import opened Common
  import Ordering

  /** One row of `daily_progress`; at most one per (user, date). */
  datatype DailyProgress = DailyProgress(
    user: Id,
    date: int,
    totalStudyMinutes: int,
    cardsReviewed: int,
    cardsMastered: int,
    notesCreated: int,
    streakDays: int)

  /** The body of a create request (its `user_id` field is ignored by the handler). */
  datatype ProgressCreate = ProgressCreate(
    date: int,
    totalStudyMinutes: int,
    cardsReviewed: int,
    cardsMastered: int,
    notesCreated: int,
    streakDays: int)

  /** The fields a PATCH request sets; `None` is a field left unset. */
  datatype ProgressUpdate = ProgressUpdate(
    totalStudyMinutes: Option<int>,
    cardsReviewed: Option<int>,
    cardsMastered: Option<int>,
    notesCreated: Option<int>,
    streakDays: Option<int>)

  datatype Saved = Saved(store: seq<DailyProgress>, record: DailyProgress)

  /** The response of GET /progress/streak. */
  datatype Streak = Streak(streakDays: nat, lastStudyDate: Option<int>)

  /** The table's unique constraint on (user_id, date). */
  ghost predicate UniquePerUserDate(store: seq<DailyProgress>)
  {
    forall i, j :: 0 <= i < j < |store| ==>
      (store[i].user, store[i].date) != (store[j].user, store[j].date)
  }

  predicate HasRecord(store: seq<DailyProgress>, user: Id, date: int)
  {
    exists i :: 0 <= i < |store| && store[i].user == user && store[i].date == date
  }

  lemma HasRecordTail(store: seq<DailyProgress>, user: Id, date: int)
    requires |store| > 0
    ensures HasRecord(store, user, date) <==>
            (store[0].user == user && store[0].date == date) || HasRecord(store[1..], user, date)
  {
    if HasRecord(store, user, date) && !(store[0].user == user && store[0].date == date) {
      var i :| 0 <= i < |store| && store[i].user == user && store[i].date == date;
      assert store[1..][i - 1] == store[i];
    }
    if HasRecord(store[1..], user, date) {
      var j :| 0 <= j < |store[1..]| && store[1..][j].user == user && store[1..][j].date == date;
      assert store[j + 1] == store[1..][j];
    }
  }

  function IndexOf(store: seq<DailyProgress>, user: Id, date: int): (r: Option<nat>)
    ensures r.None? <==> !HasRecord(store, user, date)
    ensures r.Some? ==> r.value < |store| && store[r.value].user == user && store[r.value].date == date
  {
    if |store| == 0 then None
    else if store[0].user == user && store[0].date == date then Some(0)
    else
      match IndexOf(store[1..], user, date)
      case None =>
        HasRecordTail(store, user, date);
        None
      case Some(k) => Some(k + 1)
  }

  /** POST /progress/daily: a second record for the caller's date is a 409 and
      leaves the store unchanged; otherwise the record is appended. */
  function CreateDailyProgress(store: seq<DailyProgress>, caller: Id, payload: ProgressCreate): (r: Result<Saved>)
    ensures r.Fail? <==> HasRecord(store, caller, payload.date)
    ensures r.Fail? ==> r.error == Error(CONFLICT, "Daily progress for this date already exists")
    ensures r.Ok? ==> r.value.store == store + [r.value.record]
    ensures r.Ok? ==> r.value.record == DailyProgress(caller, payload.date, payload.totalStudyMinutes,
                                                      payload.cardsReviewed, payload.cardsMastered,
                                                      payload.notesCreated, payload.streakDays)
    ensures UniquePerUserDate(store) && r.Ok? ==> UniquePerUserDate(r.value.store)
  {
    if HasRecord(store, caller, payload.date) then
      Fail(Error(CONFLICT, "Daily progress for this date already exists"))
    else
      var rec := DailyProgress(caller, payload.date, payload.totalStudyMinutes, payload.cardsReviewed,
                               payload.cardsMastered, payload.notesCreated, payload.streakDays);
      Ok(Saved(store + [rec], rec))
  }

  function Or(o: Option<int>, current: int): int
  {
    if o.Some? then o.value else current
  }

  /** The PATCH merge: each set field overwrites, each unset field is kept. */
  function ApplyUpdate(rec: DailyProgress, u: ProgressUpdate): (r: DailyProgress)
    ensures r.user == rec.user && r.date == rec.date
    ensures u.totalStudyMinutes.None? ==> r.totalStudyMinutes == rec.totalStudyMinutes
    ensures u.totalStudyMinutes.Some? ==> r.totalStudyMinutes == u.totalStudyMinutes.value
    ensures u.cardsReviewed.None? ==> r.cardsReviewed == rec.cardsReviewed
    ensures u.cardsReviewed.Some? ==> r.cardsReviewed == u.cardsReviewed.value
    ensures u.cardsMastered.None? ==> r.cardsMastered == rec.cardsMastered
    ensures u.cardsMastered.Some? ==> r.cardsMastered == u.cardsMastered.value
    ensures u.notesCreated.None? ==> r.notesCreated == rec.notesCreated
    ensures u.notesCreated.Some? ==> r.notesCreated == u.notesCreated.value
    ensures u.streakDays.None? ==> r.streakDays == rec.streakDays
    ensures u.streakDays.Some? ==> r.streakDays == u.streakDays.value
    ensures u == ProgressUpdate(None, None, None, None, None) ==> r == rec
  {
    rec.(totalStudyMinutes := Or(u.totalStudyMinutes, rec.totalStudyMinutes),
         cardsReviewed := Or(u.cardsReviewed, rec.cardsReviewed),
         cardsMastered := Or(u.cardsMastered, rec.cardsMastered),
         notesCreated := Or(u.notesCreated, rec.notesCreated),
         streakDays := Or(u.streakDays, rec.streakDays))
  }

  /** PATCH /progress/daily/{date}: 404 when the caller has no record for the
      date; otherwise only that record changes, and never its (user, date). */
  function UpdateDailyProgress(store: seq<DailyProgress>, caller: Id, date: int, payload: ProgressUpdate): (r: Result<Saved>)
    ensures r.Fail? <==> !HasRecord(store, caller, date)
    ensures r.Fail? ==> r.error == Error(NOT_FOUND, "Daily progress not found for this date")
    ensures r.Ok? ==> |r.value.store| == |store|
    ensures r.Ok? ==> r.value.record.user == caller && r.value.record.date == date
    ensures r.Ok? && UniquePerUserDate(store) ==> forall i :: 0 <= i < |store| ==>
              if store[i].user == caller && store[i].date == date
              then r.value.store[i] == ApplyUpdate(store[i], payload)
              else r.value.store[i] == store[i]
    ensures UniquePerUserDate(store) && r.Ok? ==> UniquePerUserDate(r.value.store)
  {
    match IndexOf(store, caller, date)
    case None => Fail(Error(NOT_FOUND, "Daily progress not found for this date"))
    case Some(k) =>
      var rec := ApplyUpdate(store[k], payload);
      var store' := store[k := rec];
      assert UniquePerUserDate(store) ==> forall i :: 0 <= i < |store| && i != k ==>
        !(store[i].user == caller && store[i].date == date);
      Ok(Saved(store', rec))
  }

  // ---------------------------------------------------------------------------
  // The streak walk

  /** The date the walk measures record `i` against, plus one: after each
      counted record the check date becomes that record's date minus one. */
  function Anchor(records: seq<DailyProgress>, today: int, i: nat): int
    requires i <= |records|
  {
    if i == 0 then today + 1 else records[i - 1].date
  }

  /** Record `i` extends the streak: it has study minutes, and its date is the
      check date or the day before it (one missing day is skipped). */
  predicate Links(records: seq<DailyProgress>, today: int, i: nat)
    requires i < |records|
  {
    && records[i].totalStudyMinutes > 0
    && (records[i].date == Anchor(records, today, i) - 1 || records[i].date == Anchor(records, today, i) - 2)
  }

  /** Declarative meaning of the streak: the first `k` records all link, and
      record `k` (if any) does not. */
  predicate IsStreakLength(records: seq<DailyProgress>, today: int, k: nat)
  {
    && k <= |records|
    && (forall i :: 0 <= i < k ==> Links(records, today, i))
    && (k < |records| ==> !Links(records, today, k))
  }

  /** The loop of `get_streak`, from record `i` with the given check date. */
  function WalkFrom(records: seq<DailyProgress>, i: nat, checkDate: int): (n: nat)
    requires i <= |records|
    ensures n <= |records| - i
    decreases |records| - i
  {
    if i == |records| then 0
    else
      var record := records[i];
      if record.date == checkDate then
        if record.totalStudyMinutes > 0 then 1 + WalkFrom(records, i + 1, checkDate - 1) else 0
      else if record.date == checkDate - 1 then
        if record.totalStudyMinutes > 0 then 1 + WalkFrom(records, i + 1, checkDate - 2) else 0
      else 0
  }

  /** The streak of a date-descending history, as `get_streak` computes it. */
  function StreakOf(records: seq<DailyProgress>, today: int): (r: Streak)
    ensures records == [] ==> r == Streak(0, None)
    ensures records != [] ==> r.lastStudyDate == Some(records[0].date)
    ensures r.streakDays <= |records|
  {
    if |records| == 0 then Streak(0, None)
    else Streak(WalkFrom(records, 0, today), Some(records[0].date))
  }

  lemma {:induction false} WalkFromMeaning(records: seq<DailyProgress>, today: int, i: nat)
    requires i <= |records|
    requires forall j :: 0 <= j < i ==> Links(records, today, j)
    ensures IsStreakLength(records, today, i + WalkFrom(records, i, Anchor(records, today, i) - 1))
    decreases |records| - i
  {
    if i < |records| && Links(records, today, i) {
      WalkFromMeaning(records, today, i + 1);
    }
  }

  /** The walk computes exactly the declarative streak length. */
  lemma WalkIsStreakLength(records: seq<DailyProgress>, today: int)
    ensures IsStreakLength(records, today, StreakOf(records, today).streakDays)
  {
    WalkFromMeaning(records, today, 0);
  }

  /** The declarative streak length is unique. */
  lemma StreakLengthUnique(records: seq<DailyProgress>, today: int, k1: nat, k2: nat)
    requires IsStreakLength(records, today, k1) && IsStreakLength(records, today, k2)
    ensures k1 == k2
  {
  }

  /** `get_streak` with its `for ... break` loop, statement by statement. */
  method StreakLoop(records: seq<DailyProgress>, today: int) returns (streakDays: nat, lastStudyDate: Option<int>)
    ensures IsStreakLength(records, today, streakDays)
    ensures records == [] ==> streakDays == 0 && lastStudyDate == None
    ensures records != [] ==> lastStudyDate == Some(records[0].date)
  {
    if |records| == 0 {
      return 0, None;
    }
    lastStudyDate := Some(records[0].date);
    streakDays := 0;
    var checkDate := today;
    var i := 0;
    while i < |records|
      invariant 0 <= i <= |records|
      invariant streakDays == i
      invariant checkDate == Anchor(records, today, i) - 1
      invariant forall j :: 0 <= j < i ==> Links(records, today, j)
    {
      var record := records[i];
      if record.date == checkDate {
        if record.totalStudyMinutes > 0 {
          streakDays := streakDays + 1;
          checkDate := checkDate - 1;
        } else {
          break;
        }
      } else if record.date == checkDate - 1 {
        checkDate := checkDate - 1;
        if record.totalStudyMinutes > 0 {
          streakDays := streakDays + 1;
          checkDate := checkDate - 1;
        } else {
          break;
        }
      } else {
        break;
      }
      i := i + 1;
    }
  }

  /** Records for today, today-1, ..., today-(k-1), each with minutes, give streak k. */
  lemma ConsecutiveDays(records: seq<DailyProgress>, today: int)
    requires forall i :: 0 <= i < |records| ==> records[i].date == today - i && records[i].totalStudyMinutes > 0
    ensures StreakOf(records, today).streakDays == |records|
  {
    WalkIsStreakLength(records, today);
    assert forall i :: 0 <= i < |records| ==> Links(records, today, i);
    StreakLengthUnique(records, today, StreakOf(records, today).streakDays, |records|);
  }

  /** The one-day gap is tolerated at every step: today, today-2, today-4, ...
      with minutes give a streak as long as the history. */
  lemma EveryOtherDay(records: seq<DailyProgress>, today: int)
    requires forall i :: 0 <= i < |records| ==> records[i].date == today - 2 * i && records[i].totalStudyMinutes > 0
    ensures StreakOf(records, today).streakDays == |records|
  {
    WalkIsStreakLength(records, today);
    assert forall i :: 0 <= i < |records| ==> Links(records, today, i);
    StreakLengthUnique(records, today, StreakOf(records, today).streakDays, |records|);
  }

  /** No record for today yet: a studied yesterday still starts the streak. */
  lemma YesterdayCounts(records: seq<DailyProgress>, today: int)
    requires records != [] && records[0].date == today - 1 && records[0].totalStudyMinutes > 0
    ensures StreakOf(records, today).streakDays >= 1
  {
    WalkIsStreakLength(records, today);
  }

  /** A record without minutes on the checked day, or a gap of two or more
      days, ends the count at that record. */
  lemma StopsAt(records: seq<DailyProgress>, today: int, i: nat)
    requires i < |records|
    requires records[i].totalStudyMinutes <= 0 || records[i].date < Anchor(records, today, i) - 2
    ensures StreakOf(records, today).streakDays <= i
  {
    WalkIsStreakLength(records, today);
    assert !Links(records, today, i);
  }

  /** The first `n` rows (`.limit(n)`). */
  function Take(s: seq<DailyProgress>, n: nat): (r: seq<DailyProgress>)
    ensures |r| == Min(n, |s|)
    ensures r == s[..|r|]
  {
    if |s| <= n then s else s[..n]
  }

  /** The caller's history as queried by `get_streak`: newest first, at most 365 rows. */
  function RecentHistory(store: seq<DailyProgress>, caller: Id): (r: seq<DailyProgress>)
    ensures |r| <= 365
    ensures Ordering.Descending(r, (p: DailyProgress) => p.date)
    ensures forall p :: p in r ==> p in store && p.user == caller
    ensures r == [] <==> forall p :: p in store ==> p.user != caller
    ensures r != [] ==> forall p :: p in store && p.user == caller ==> p.date <= r[0].date
  {
    var mine := Filter(store, (p: DailyProgress) => p.user == caller);
    var sorted := Ordering.SortDesc(mine, (p: DailyProgress) => p.date);
    Ordering.MultisetSameMembers(mine, sorted);
    var r := Take(sorted, 365);
    assert r != [] ==> r[0] == sorted[0];
    assert forall p :: p in r ==> p in sorted by {
      forall p | p in r ensures p in sorted {
        var k :| 0 <= k < |r| && r[k] == p;
        assert sorted[k] == p;
      }
    }
    assert sorted != [] ==> r != [];
    assert r != [] ==> forall p :: p in sorted ==> p.date <= r[0].date by {
      if r != [] {
        forall p | p in sorted ensures p.date <= r[0].date {
          var k :| 0 <= k < |sorted| && sorted[k] == p;
          if k > 0 { assert Ordering.Descending(sorted, (p: DailyProgress) => p.date); }
        }
      }
    }
    r
  }

  /** GET /progress/streak for the caller. */
  function GetStreak(store: seq<DailyProgress>, caller: Id, today: int): (r: Streak)
    ensures r.streakDays <= 365
    ensures r.lastStudyDate.None? <==> forall p :: p in store ==> p.user != caller
    ensures r.lastStudyDate.Some? ==> exists p :: p in store && p.user == caller && p.date == r.lastStudyDate.value
    ensures r.lastStudyDate.Some? ==> forall p :: p in store && p.user == caller ==> p.date <= r.lastStudyDate.value
  {
    StreakOf(RecentHistory(store, caller), today)
  }
}

=== FILE: study_groups.dfy ===
/** The study-groups router as a membership state machine: groups, their
    memberships (one row per (group, user)) and the resources shared in them. */
module StudyGroups {
  import opened Common

  datatype Group = Group(
    id: Id,
    name: string,
    description: Option<string>,
    creator: Id,
    isPrivate: bool,
    inviteCode: Option<string>,
    maxMembers: Option<int>,
    createdAt: int)

  /** One row of `study_group_members`. */
  datatype Member = Member(group: Id, user: Id, role: string)

  /** One row of `shared_resources`. */
  datatype Resource = Resource(id: Id, group: Id, sharedBy: Id, resourceType: string, resourceId: Id, title: string)

  /** The body of POST /study-groups (its `creator_id` field is ignored by the handler). */
  datatype GroupCreate = GroupCreate(
    name: string,
    description: Option<string>,
    isPrivate: bool,
    inviteCode: Option<string>,
    maxMembers: Option<int>)

  datatype ResourceCreate = ResourceCreate(resourceType: string, resourceId: Id, title: string)

  datatype Store = Store(groups: map<Id, Group>, members: seq<Member>, resources: seq<Resource>)

  const CREATOR_ROLE := "creator"
  const MEMBER_ROLE := "member"

  const GroupNotFound := Error(NOT_FOUND, "Study group not found")
  const AccessDenied := Error(FORBIDDEN, "Access denied")

  // ---------------------------------------------------------------------------
  // Membership

  predicate IsMember(members: seq<Member>, g: Id, u: Id)
  {
    exists i :: 0 <= i < |members| && members[i].group == g && members[i].user == u
  }

  function InGroup(g: Id): Member -> bool
  {
    (m: Member) => m.group == g
  }

  /** The rows `join_group` counts against `max_members`. */
  function MemberCount(members: seq<Member>, g: Id): nat
  {
    |Filter(members, InGroup(g))|
  }

  /** Every row except the membership of `u` in `g`. */
  function Without(g: Id, u: Id): Member -> bool
  {
    (m: Member) => !(m.group == g && m.user == u)
  }

  /** At most one membership row per (group, user). */
  ghost predicate NoDuplicateMembership(members: seq<Member>)
  {
    forall i, j :: 0 <= i < j < |members| ==> !SameSlot(members[i], members[j])
  }

  /** Every group's creator holds a membership with role "creator". */
  ghost predicate CreatorsAreMembers(st: Store)
  {
    forall g :: g in st.groups ==>
      exists i :: 0 <= i < |st.members| && st.members[i] == Member(g, st.groups[g].creator, CREATOR_ROLE)
  }

  ghost predicate InviteCodesUnique(groups: map<Id, Group>)
  {
    forall g, h :: g in groups && h in groups && g != h && groups[g].inviteCode.Some? ==>
      groups[g].inviteCode != groups[h].inviteCode
  }

  ghost predicate Valid(st: Store)
  {
    && (forall g :: g in st.groups ==> st.groups[g].id == g)
    && (forall m :: m in st.members ==> m.group in st.groups)
    && (forall x :: x in st.resources ==> x.group in st.groups)
    && NoDuplicateMembership(st.members)
    && CreatorsAreMembers(st)
    && InviteCodesUnique(st.groups)
  }

  // ---------------------------------------------------------------------------
  // Reads

  /** GET /study-groups/{id}: 404 for a missing group, 403 for a private
      group the caller is not a member of. */
  function GetGroup(st: Store, caller: Id, g: Id): (r: Result<Group>)
    ensures r.Fail? <==> g !in st.groups || (st.groups[g].isPrivate && !IsMember(st.members, g, caller))
    ensures g !in st.groups ==> r == Fail(GroupNotFound)
    ensures g in st.groups && r.Fail? ==> r.error == AccessDenied
    ensures r.Ok? ==> r.value == st.groups[g]
  {
    if g !in st.groups then Fail(GroupNotFound)
    else if !IsMember(st.members, g, caller) && st.groups[g].isPrivate then Fail(AccessDenied)
    else Ok(st.groups[g])
  }

  /** GET /study-groups/{id}/members: the group's membership rows, under the same access rule. */
  function ListMembers(st: Store, caller: Id, g: Id): (r: Result<seq<Member>>)
    ensures r.Fail? <==> GetGroup(st, caller, g).Fail?
    ensures r.Fail? ==> r.error == GetGroup(st, caller, g).error
    ensures r.Ok? ==> forall m :: m in r.value ==> m in st.members && m.group == g
    ensures r.Ok? ==> forall m :: m in st.members && m.group == g ==> m in r.value
    ensures r.Ok? ==> |r.value| == MemberCount(st.members, g)
  {
    match GetGroup(st, caller, g)
    case Fail(e) => Fail(e)
    case Ok(_) => Ok(Filter(st.members, InGroup(g)))
  }

  /** GET /study-groups/{id}/resources: the group's shared resources, under the same access rule. */
  function ListResources(st: Store, caller: Id, g: Id): (r: Result<seq<Resource>>)
    ensures r.Fail? <==> GetGroup(st, caller, g).Fail?
    ensures r.Fail? ==> r.error == GetGroup(st, caller, g).error
    ensures r.Ok? ==> forall x :: x in r.value ==> x in st.resources && x.group == g
    ensures r.Ok? ==> forall x :: x in st.resources && x.group == g ==> x in r.value
    ensures r.Ok? ==> forall x :: x in st.resources ==>
              multiset(r.value)[x] == if x.group == g then multiset(st.resources)[x] else 0
  {
    match GetGroup(st, caller, g)
    case Fail(e) => Fail(e)
    case Ok(_) => Ok(Filter(st.resources, (x: Resource) => x.group == g))
  }

  // ---------------------------------------------------------------------------
  // Transitions

  predicate InviteCodeTaken(groups: map<Id, Group>, code: string)
  {
    exists g :: g in groups && groups[g].inviteCode == Some(code)
  }

  /** POST /study-groups: the group is stored with the caller as creator and
      the caller joins it with role "creator"; a taken invite code violates
      the column's unique constraint. */
  function CreateGroup(st: Store, caller: Id, payload: GroupCreate, id: Id, now: int): (r: Result<Store>)
    requires id !in st.groups
    ensures r.Fail? <==> payload.inviteCode.Some? && InviteCodeTaken(st.groups, payload.inviteCode.value)
    ensures r.Fail? ==> r.error == DatabaseError
    ensures r.Ok? ==> id in r.value.groups && r.value.groups[id].creator == caller
    ensures r.Ok? ==> r.value.groups == st.groups[id := r.value.groups[id]]
    ensures r.Ok? ==> var grp := r.value.groups[id];
              grp.name == payload.name && grp.description == payload.description && grp.isPrivate == payload.isPrivate
              && grp.inviteCode == payload.inviteCode && grp.maxMembers == payload.maxMembers
    ensures r.Ok? ==> r.value.members == st.members + [Member(id, caller, CREATOR_ROLE)]
    ensures r.Ok? ==> r.value.resources == st.resources
  {
    if payload.inviteCode.Some? && InviteCodeTaken(st.groups, payload.inviteCode.value) then Fail(DatabaseError)
    else
      var grp := Group(id, payload.name, payload.description, caller, payload.isPrivate,
                       payload.inviteCode, payload.maxMembers, now);
      Ok(Store(st.groups[id := grp], st.members + [Member(id, caller, CREATOR_ROLE)], st.resources))
  }

  /** POST /study-groups/{id}/join: in order, 404 for a missing group, 403 for
      a private group whose invite code differs, 409 for an existing member,
      409 for a group at capacity; otherwise one "member" row is added. */
  function JoinGroup(st: Store, caller: Id, g: Id, inviteCode: string): (r: Result<Store>)
    ensures g !in st.groups ==> r == Fail(GroupNotFound)
    ensures g in st.groups && st.groups[g].isPrivate && st.groups[g].inviteCode != Some(inviteCode) ==>
              r == Fail(Error(FORBIDDEN, "Invalid invite code"))
    ensures r.Fail? && r.error.status == CONFLICT ==>
              IsMember(st.members, g, caller)
              || (st.groups[g].maxMembers.Some? && MemberCount(st.members, g) >= st.groups[g].maxMembers.value)
    ensures IsMember(st.members, g, caller) ==> r.Fail?
    ensures g in st.groups && !(st.groups[g].isPrivate && st.groups[g].inviteCode != Some(inviteCode))
            && IsMember(st.members, g, caller) ==>
              r == Fail(Error(CONFLICT, "Already a member of this group"))
    ensures g in st.groups && !(st.groups[g].isPrivate && st.groups[g].inviteCode != Some(inviteCode))
            && !IsMember(st.members, g, caller)
            && st.groups[g].maxMembers.Some? && MemberCount(st.members, g) >= st.groups[g].maxMembers.value ==>
              r == Fail(Error(CONFLICT, "Group is full"))
    ensures r.Ok? <==> g in st.groups
                       && !(st.groups[g].isPrivate && st.groups[g].inviteCode != Some(inviteCode))
                       && !IsMember(st.members, g, caller)
                       && !(st.groups[g].maxMembers.Some? && MemberCount(st.members, g) >= st.groups[g].maxMembers.value)
    ensures r.Ok? ==> r.value == st.(members := st.members + [Member(g, caller, MEMBER_ROLE)])
    ensures r.Ok? && st.groups[g].maxMembers.Some? ==> MemberCount(r.value.members, g) <= st.groups[g].maxMembers.value
  {
    if g !in st.groups then Fail(GroupNotFound)
    else
      var grp := st.groups[g];
      if grp.isPrivate && grp.inviteCode != Some(inviteCode) then Fail(Error(FORBIDDEN, "Invalid invite code"))
      else if IsMember(st.members, g, caller) then Fail(Error(CONFLICT, "Already a member of this group"))
      else if grp.maxMembers.Some? && MemberCount(st.members, g) >= grp.maxMembers.value then
        Fail(Error(CONFLICT, "Group is full"))
      else
        FilterAppend(st.members, Member(g, caller, MEMBER_ROLE), InGroup(g));
        Ok(st.(members := st.members + [Member(g, caller, MEMBER_ROLE)]))
  }

  /** DELETE /study-groups/{id}/leave: 404 for a missing group, 400 for the
      creator, 404 for a non-member; otherwise the caller's membership goes. */
  function LeaveGroup(st: Store, caller: Id, g: Id): (r: Result<Store>)
    ensures g !in st.groups ==> r == Fail(GroupNotFound)
    ensures g in st.groups && st.groups[g].creator == caller ==>
              r == Fail(Error(BAD_REQUEST, "Creator cannot leave the group. Transfer ownership or delete the group instead."))
    ensures g in st.groups && st.groups[g].creator != caller && !IsMember(st.members, g, caller) ==>
              r == Fail(Error(NOT_FOUND, "Not a member of this group"))
    ensures r.Ok? <==> g in st.groups && st.groups[g].creator != caller && IsMember(st.members, g, caller)
    ensures r.Ok? ==> r.value == st.(members := Filter(st.members, Without(g, caller)))
  {
    if g !in st.groups then Fail(GroupNotFound)
    else if st.groups[g].creator == caller then
      Fail(Error(BAD_REQUEST, "Creator cannot leave the group. Transfer ownership or delete the group instead."))
    else if !IsMember(st.members, g, caller) then Fail(Error(NOT_FOUND, "Not a member of this group"))
    else Ok(st.(members := Filter(st.members, Without(g, caller))))
  }

  /** DELETE /study-groups/{id}/members/{user}: 404 for a missing group, 403
      unless the caller is the creator, 404 for a non-member target, 400 for
      the creator as target; otherwise the target's membership goes. */
  function RemoveMember(st: Store, caller: Id, g: Id, target: Id): (r: Result<Store>)
    ensures g !in st.groups ==> r == Fail(GroupNotFound)
    ensures g in st.groups && st.groups[g].creator != caller ==>
              r == Fail(Error(FORBIDDEN, "Only the creator can remove members"))
    ensures g in st.groups && st.groups[g].creator == caller && !IsMember(st.members, g, target) ==>
              r == Fail(Error(NOT_FOUND, "Member not found"))
    ensures g in st.groups && st.groups[g].creator == caller && IsMember(st.members, g, target) && target == caller ==>
              r == Fail(Error(BAD_REQUEST, "Cannot remove the group creator"))
    ensures r.Ok? <==> g in st.groups && st.groups[g].creator == caller && IsMember(st.members, g, target) && target != caller
    ensures r.Ok? ==> r.value == st.(members := Filter(st.members, Without(g, target)))
  {
    if g !in st.groups then Fail(GroupNotFound)
    else if st.groups[g].creator != caller then Fail(Error(FORBIDDEN, "Only the creator can remove members"))
    else if !IsMember(st.members, g, target) then Fail(Error(NOT_FOUND, "Member not found"))
    else if target == st.groups[g].creator then Fail(Error(BAD_REQUEST, "Cannot remove the group creator"))
    else Ok(st.(members := Filter(st.members, Without(g, target))))
  }

  predicate ResourceIdUsed(resources: seq<Resource>, id: Id)
  {
    exists i :: 0 <= i < |resources| && resources[i].id == id
  }

  /** POST /study-groups/{id}/resources: 404 for a missing group, 403 for a
      non-member; otherwise the resource is stored as shared by the caller. */
  function ShareResource(st: Store, caller: Id, g: Id, payload: ResourceCreate, id: Id): (r: Result<Store>)
    requires !ResourceIdUsed(st.resources, id)
    ensures g !in st.groups ==> r == Fail(GroupNotFound)
    ensures r.Ok? <==> g in st.groups && IsMember(st.members, g, caller)
    ensures g in st.groups && r.Fail? ==> r.error == Error(FORBIDDEN, "Must be a group member to share resources")
    ensures r.Ok? ==> r.value == st.(resources := st.resources + [Resource(id, g, caller, payload.resourceType, payload.resourceId, payload.title)])
  {
    if g !in st.groups then Fail(GroupNotFound)
    else if !IsMember(st.members, g, caller) then Fail(Error(FORBIDDEN, "Must be a group member to share resources"))
    else Ok(st.(resources := st.resources + [Resource(id, g, caller, payload.resourceType, payload.resourceId, payload.title)]))
  }

  /** The position of resource `id` in group `g`. */
  function FindResource(resources: seq<Resource>, g: Id, id: Id, i: nat): (r: Option<nat>)
    requires i <= |resources|
    ensures r.Some? ==> i <= r.value < |resources| && resources[r.value].id == id && resources[r.value].group == g
    ensures r.None? <==> forall k :: i <= k < |resources| ==> !(resources[k].id == id && resources[k].group == g)
    decreases |resources| - i
  {
    if i == |resources| then None
    else if resources[i].id == id && resources[i].group == g then Some(i)
    else FindResource(resources, g, id, i + 1)
  }

  /** DELETE /study-groups/{id}/resources/{rid}: 404 for a missing group or a
      resource not in it, 403 unless the caller shared it or created the group. */
  function DeleteResource(st: Store, caller: Id, g: Id, id: Id): (r: Result<Store>)
    ensures g !in st.groups ==> r == Fail(GroupNotFound)
    ensures g in st.groups && FindResource(st.resources, g, id, 0).None? ==> r == Fail(Error(NOT_FOUND, "Resource not found"))
    ensures g in st.groups && FindResource(st.resources, g, id, 0).Some?
            && st.resources[FindResource(st.resources, g, id, 0).value].sharedBy != caller
            && st.groups[g].creator != caller ==>
              r == Fail(Error(FORBIDDEN, "Not authorized to remove this resource"))
    ensures r.Ok? <==> g in st.groups && FindResource(st.resources, g, id, 0).Some?
                       && (st.resources[FindResource(st.resources, g, id, 0).value].sharedBy == caller
                           || st.groups[g].creator == caller)
    ensures r.Ok? ==> var k := FindResource(st.resources, g, id, 0).value;
              r.value == st.(resources := st.resources[..k] + st.resources[k + 1..])
  {
    if g !in st.groups then Fail(GroupNotFound)
    else match FindResource(st.resources, g, id, 0)
      case None => Fail(Error(NOT_FOUND, "Resource not found"))
      case Some(k) =>
        if st.resources[k].sharedBy != caller && st.groups[g].creator != caller then
          Fail(Error(FORBIDDEN, "Not authorized to remove this resource"))
        else Ok(st.(resources := st.resources[..k] + st.resources[k + 1..]))
  }

  // ---------------------------------------------------------------------------
  // Invariants kept by every transition

  predicate SameSlot(a: Member, b: Member)
  {
    a.group == b.group && a.user == b.user
  }

  lemma ConsNoDuplicates(h: Member, rest: seq<Member>)
    requires NoDuplicateMembership(rest)
    requires forall j :: 0 <= j < |rest| ==> !SameSlot(h, rest[j])
    ensures NoDuplicateMembership([h] + rest)
  {
    var r := [h] + rest;
    forall i, j | 0 <= i < j < |r| ensures !SameSlot(r[i], r[j]) {
      assert r[j] == rest[j - 1];
      if i > 0 { assert r[i] == rest[i - 1]; }
    }
  }

  lemma {:induction false} FilterKeepsNoDuplicates(members: seq<Member>, p: Member -> bool)
    requires NoDuplicateMembership(members)
    ensures NoDuplicateMembership(Filter(members, p))
  {
    if |members| > 0 {
      var h, t := members[0], members[1..];
      FilterKeepsNoDuplicates(t, p);
      var rest := Filter(t, p);
      assert Filter(members, p) == if p(h) then [h] + rest else rest;
      if p(h) {
        forall j | 0 <= j < |rest| ensures !SameSlot(h, rest[j]) {
          assert rest[j] in t;
          var k :| 0 <= k < |t| && t[k] == rest[j];
          assert members[k + 1] == t[k];
        }
        ConsNoDuplicates(h, rest);
      }
    }
  }

  /** The membership rows `Without(g, u)` keeps include every creator row
      except possibly one of `u` in `g`. */
  lemma RemovalKeepsCreators(st: Store, g: Id, u: Id)
    requires CreatorsAreMembers(st)
    requires g in st.groups && st.groups[g].creator != u
    ensures CreatorsAreMembers(st.(members := Filter(st.members, Without(g, u))))
  {
    var kept := Filter(st.members, Without(g, u));
    forall h | h in st.groups
      ensures exists i :: 0 <= i < |kept| && kept[i] == Member(h, st.groups[h].creator, CREATOR_ROLE)
    {
      var row := Member(h, st.groups[h].creator, CREATOR_ROLE);
      var i :| 0 <= i < |st.members| && st.members[i] == row;
      assert row in st.members;
      assert row in kept;
      var j :| 0 <= j < |kept| && kept[j] == row;
    }
  }

  lemma CreateKeepsValid(st: Store, caller: Id, payload: GroupCreate, id: Id, now: int)
    requires Valid(st) && id !in st.groups
    requires CreateGroup(st, caller, payload, id, now).Ok?
    ensures Valid(CreateGroup(st, caller, payload, id, now).value)
  {
    var st' := CreateGroup(st, caller, payload, id, now).value;
    assert st'.members[|st.members|] == Member(id, caller, CREATOR_ROLE);
    forall h | h in st.groups
      ensures exists i :: 0 <= i < |st'.members| && st'.members[i] == Member(h, st'.groups[h].creator, CREATOR_ROLE)
    {
      var i :| 0 <= i < |st.members| && st.members[i] == Member(h, st.groups[h].creator, CREATOR_ROLE);
      assert st'.members[i] == st.members[i];
    }
  }

  lemma JoinKeepsValid(st: Store, caller: Id, g: Id, inviteCode: string)
    requires Valid(st)
    requires JoinGroup(st, caller, g, inviteCode).Ok?
    ensures Valid(JoinGroup(st, caller, g, inviteCode).value)
  {
    var st' := JoinGroup(st, caller, g, inviteCode).value;
    forall h | h in st.groups
      ensures exists i :: 0 <= i < |st'.members| && st'.members[i] == Member(h, st'.groups[h].creator, CREATOR_ROLE)
    {
      var i :| 0 <= i < |st.members| && st.members[i] == Member(h, st.groups[h].creator, CREATOR_ROLE);
      assert st'.members[i] == st.members[i];
    }
  }

  /** The creator is never the one leaving, so every creator stays a member. */
  lemma LeaveKeepsValid(st: Store, caller: Id, g: Id)
    requires Valid(st)
    requires LeaveGroup(st, caller, g).Ok?
    ensures Valid(LeaveGroup(st, caller, g).value)
  {
    FilterKeepsNoDuplicates(st.members, Without(g, caller));
    RemovalKeepsCreators(st, g, caller);
  }

  /** The creator is never the one removed, so every creator stays a member. */
  lemma RemoveKeepsValid(st: Store, caller: Id, g: Id, target: Id)
    requires Valid(st)
    requires RemoveMember(st, caller, g, target).Ok?
    ensures Valid(RemoveMember(st, caller, g, target).value)
  {
    FilterKeepsNoDuplicates(st.members, Without(g, target));
    RemovalKeepsCreators(st, g, target);
  }

  lemma ShareKeepsValid(st: Store, caller: Id, g: Id, payload: ResourceCreate, id: Id)
    requires Valid(st) && !ResourceIdUsed(st.resources, id)
    requires ShareResource(st, caller, g, payload, id).Ok?
    ensures Valid(ShareResource(st, caller, g, payload, id).value)
  {
  }

  lemma DeleteResourceKeepsValid(st: Store, caller: Id, g: Id, id: Id)
    requires Valid(st)
    requires DeleteResource(st, caller, g, id).Ok?
    ensures Valid(DeleteResource(st, caller, g, id).value)
  {
    var k := FindResource(st.resources, g, id, 0).value;
    var rs := DeleteResource(st, caller, g, id).value.resources;
    forall x | x in rs ensures x.group in st.groups {
      var i :| 0 <= i < |rs| && rs[i] == x;
      if i < k { assert rs[i] == st.resources[i]; } else { assert rs[i] == st.resources[i + 1]; }
    }
  }

  /** A non-creator who joins and then leaves restores the membership table exactly. */
  lemma JoinThenLeave(st: Store, caller: Id, g: Id, inviteCode: string)
    requires JoinGroup(st, caller, g, inviteCode).Ok?
    requires st.groups[g].creator != caller
    ensures LeaveGroup(JoinGroup(st, caller, g, inviteCode).value, caller, g) == Ok(st)
  {
    var joined := JoinGroup(st, caller, g, inviteCode).value;
    var row := Member(g, caller, MEMBER_ROLE);
    assert joined.members == st.members + [row];
    assert joined.members[|st.members|] == row;
    assert IsMember(joined.members, g, caller);
    assert !IsMember(st.members, g, caller);
    FilterAppend(st.members, row, Without(g, caller));
    assert Filter(joined.members, Without(g, caller)) == Filter(st.members, Without(g, caller));
    forall i | 0 <= i < |st.members| ensures Without(g, caller)(st.members[i]) {
    }
    FilterKeepsAll(st.members, Without(g, caller));
    assert joined.(members := st.members) == st;
  }
}

=== FILE: tags.dfy ===
/** Tags and the list-as-set attachment logic shared by notes and flashcards. */
module Tags {
  import opened Common

  /** A row of `tags`, owned by one user. */
  datatype Tag = Tag(id: Id, owner: Id, name: string)

  predicate NoDuplicates(s: seq<Id>)
  {
    forall i, j :: 0 <= i < j < |s| ==> s[i] != s[j]
  }

  /** The lookup `Tag.id == tag_id AND Tag.user_id == caller` finds a row. */
  predicate Attachable(tags: map<Id, Tag>, caller: Id, t: Id)
  {
    t in tags && tags[t].owner == caller
  }

  /** The loop of `add_tags_to_note` / `add_tags_to_flashcard`: every requested
      tag that exists, belongs to the caller and is not attached yet is
      appended, in request order. */
  function AttachTags(current: seq<Id>, requested: seq<Id>, tags: map<Id, Tag>, caller: Id): (r: seq<Id>)
    ensures |current| <= |r| && r[..|current|] == current
    ensures forall t :: t in r ==> t in current || (t in requested && Attachable(tags, caller, t))
    ensures forall t :: t in requested && Attachable(tags, caller, t) ==> t in r
    ensures NoDuplicates(current) ==> NoDuplicates(r)
    decreases |requested|
  {
    if |requested| == 0 then current
    else
      var t := requested[0];
      var next := if Attachable(tags, caller, t) && t !in current then current + [t] else current;
      assert next[..|current|] == current;
      var r := AttachTags(next, requested[1..], tags, caller);
      assert r[..|current|] == r[..|next|][..|current|];
      assert forall u :: u in requested[1..] ==> u in requested;
      assert requested == [t] + requested[1..];
      assert forall u :: u in next ==> u in r by {
        forall u | u in next ensures u in r {
          var k :| 0 <= k < |next| && next[k] == u;
          assert r[..|next|][k] == u;
        }
      }
      r
  }

  /** Python's `list.remove`: drop the first occurrence. */
  function Detach(current: seq<Id>, t: Id): (r: seq<Id>)
    ensures t !in current ==> r == current
    ensures t in current ==> |r| == |current| - 1
    ensures forall u :: u in r ==> u in current
    ensures forall u :: u in current && u != t ==> u in r
    ensures NoDuplicates(current) ==> t !in r && NoDuplicates(r)
  {
    if |current| == 0 then []
    else if current[0] == t then current[1..]
    else
      var rest := Detach(current[1..], t);
      assert NoDuplicates(current) ==> current[0] !in current[1..];
      [current[0]] + rest
  }

  /** Attaching a tag and then removing it leaves it absent and every other
      tag as it was. */
  lemma AttachThenDetach(current: seq<Id>, t: Id, tags: map<Id, Tag>, caller: Id)
    requires NoDuplicates(current)
    ensures t !in Detach(AttachTags(current, [t], tags, caller), t)
    ensures forall u :: u != t ==> (u in Detach(AttachTags(current, [t], tags, caller), t) <==> u in current)
  {
    var a := AttachTags(current, [t], tags, caller);
    forall u | u != t && u in current ensures u in a {
      var k :| 0 <= k < |current| && current[k] == u;
      assert a[..|current|][k] == u;
    }
  }
}

=== FILE: users.dfy ===
/** Rows of `users` and the lookups the authentication code performs on them. */
module Users {
  import opened Common

  datatype User = User(
    id: Id,
    email: string,
    username: string,
    hashedPassword: string,
    fullName: Option<string>,
    timezone: Option<string>,
    studyGoalMinutesPerDay: Option<int>,
    isActive: bool,
    isVerified: bool)

  /** The unique constraints on `users.id`, `users.email` and `users.username`. */
  ghost predicate Unique(users: seq<User>)
  {
    forall i, j :: 0 <= i < j < |users| ==>
      users[i].id != users[j].id && users[i].email != users[j].email && users[i].username != users[j].username
  }

  function HasEmail(email: string): User -> bool { (u: User) => u.email == email }
  function HasUsername(name: string): User -> bool { (u: User) => u.username == name }
  function HasId(id: Id): User -> bool { (u: User) => u.id == id }

  predicate EmailTaken(users: seq<User>, email: string)
  {
    exists i :: 0 <= i < |users| && users[i].email == email
  }

  predicate UsernameTaken(users: seq<User>, name: string)
  {
    exists i :: 0 <= i < |users| && users[i].username == name
  }

  predicate IdTaken(users: seq<User>, id: Id)
  {
    exists i :: 0 <= i < |users| && users[i].id == id
  }

  /** `select(User).where(User.id == id)`. */
  function ById(users: seq<User>, id: Id): (r: Option<User>)
    ensures r.None? <==> !IdTaken(users, id)
    ensures r.Some? ==> r.value in users && r.value.id == id
  {
    match FindFirst(users, HasId(id))
    case None => None
    case Some(k) => Some(users[k])
  }

  /** With unique ids the lookup returns the one row with that id. */
  lemma ByIdExact(users: seq<User>, k: nat)
    requires Unique(users) && k < |users|
    ensures ById(users, users[k].id) == Some(users[k])
  {
  }
}
